=== FILE: README.md ===
# niclib patch sampling and lesion-size search, in Dafny

This project models two parts of the niclib neuroimaging library and proves properties of them.

**Patch extraction** (`generators/patch.py`):
- the index tuple that cuts a patch around a center (`_get_patch_slice`);
- the two center samplers:
  - `sample_centers_uniform`, a strided grid, optionally masked and resampled;
  - `sample_centers_balanced`, per-label coordinates that are resampled, jittered and clipped;
- the `UniformSampling` and `BalancedSampling` strategies that run a sampler over a list of images;
- the `PatchSet` dataset: it flattens (image, center) pairs into an ordered list of patch instructions, then cuts, normalizes and augments one patch per index.

**Binarization search** (`postprocessing/binarization.py`): `thresh_size_search` and `thresh_size_search_inefficient`. For every (probability threshold, minimum lesion size) pair, the search:
1. thresholds each sample's probability volume;
2. labels the connected components;
3. removes components smaller than the minimum size;
4. scores the result against the ground truth;
5. aggregates the scores per pair.

## How the model represents the program

- Exceptions are values. Every fallible operation returns a `Result`. Its `Error` names the Python exception: `AssertionError`, `IndexError`, `ValueError`, `ZeroDivisionError` or `KeyError`.
- A numpy array is a `Volume`: a shape plus a total function from index tuples to values.
- Basic slicing (`Extract`) follows numpy's rules for out-of-range bounds:
  - negative bounds wrap once;
  - bounds are then clipped to the axis;
  - an empty range has extent 0.
- Integer indexing (`Lookup`) raises on an index outside `[-n, n)`.
- `range(start, stop, step)` keeps Python's semantics. A zero step raises, and a negative step counts down.
- `itertools.product` is the lexicographic Cartesian product.
- `np.unique` gives the distinct values in ascending order.
- `np.argwhere` gives coordinates in row-major order.
- `np.clip(x, lo, hi)` is `min(max(x, lo), hi)`, so it is `hi` when `lo > hi`.
- `.astype(int)` truncates toward zero.
- Code this model cannot see is passed in as a function parameter:
  - `resample_list`;
  - the seeded random offsets;
  - `ndimage.label`;
  - the segmentation metrics and their averaging;
  - `ThreshSizeBinarizer`;
  - the floating-point normalization functions.
- In the search, a probability volume (`ProbVolume`) is its shape plus its voxels in row-major order. The labeller is given both, so connectivity can depend on the shape.
- A metrics name `th={t}_ls={s}` is kept as the pair `CellName(t, s)`, so two names are equal exactly when their reals are equal. Python's formatting tells apart a few equal values (`1` and `1.0`, `0.0` and `-0.0`); see "## Left out".

## Where the code and its documentation disagree (the model follows the code)

- **Component size.** It is `np.sum` of the boolean thresholded mask over the component, which is a voxel count. It is not the probability mass of the component.
- **Out-of-range centers.** Patch extraction does not check bounds, and numpy raises no error for an out-of-range slice. `Extract` models what it does instead, and `ItemIsExactPatch` states the exact shape only for valid centers. The two borders behave differently:
  - Near the upper border numpy clips the stop to the axis, so the patch is cut short (`HighBorderTruncatesAxis`).
  - Near the lower border the start `c - ceil(d/2)` is negative and counts from the end of the axis. On an axis at least as long as the patch, the axis of the patch is then empty (`LowBorderEmptiesAxis`). For example, c = 0 and d = 3 give `slice(-2, 1)`, which is empty on an axis of length 5.
- **Balanced clipping range.** The balanced sampler clips each coordinate to `[ceil(d/2), n - floor(d/2)]` inclusive. For n = 10 and d = 3 that is `[2, 9]`, and 9 is a valid center whose patch `[7, 10)` fits.
- **Uniform grid end.** The uniform grid is `range(ceil(d/2), n - floor(d/2), step)`. Its stop is exclusive, so the last valid center is never sampled. When the patch is exactly as large as the volume, no center is sampled (`AxisEmptyIffPatchTooLarge`).
- **The two searches are not interchangeable.** They are documented as two versions of one computation, but they differ in two ways:
  - A sample without probabilities makes the inefficient search raise KeyError (`SearchInefficient`). The efficient search skips it (`SkipMissing`).
  - A threshold or size listed twice shares one dictionary entry in the efficient search, so each of its cells aggregates every score twice. The inefficient search aggregates each score once per cell (`DuplicateThresholdDoubles`).
  - They agree when every sample is present and the thresholds and sizes are distinct (`SearchesAgree`).

## Model

| member | source | states |
|---|---|---|
| Base.CeilHalf | generators/patch.py:133 | `ceil(d / 2)` is the half of d rounded up: twice it is d or d + 1 |
| Base.FloorHalf | generators/patch.py:133 | `floor(d / 2)` is the half rounded down; the two halves add up to d and differ by at most one |
| Base.PyIndex | generators/patch.py:117 | a list index is accepted exactly in [-n, n) and then denotes i or i + n |
| Grid.PyRange | generators/patch.py:201 | `range(start, stop, step)`: element i is start + i * step, all elements lie on the correct side of stop, and the range is empty exactly when start is already past stop |
| Grid.PyRangeLength | generators/patch.py:201 | for either sign of the step, the range has exactly `len(range(start, stop, step))` elements: the number of steps from start that stay strictly before stop |
| Grid.PyRangeMembership | generators/patch.py:201 | with a positive step, x is in the range iff start <= x < stop and x - start is a multiple of the step |
| Grid.PyRangeMembershipDown | generators/patch.py:201 | with a negative step, x is in the range iff stop < x <= start and start - x is a multiple of the step |
| Grid.ProductMembership | generators/patch.py:202 | `itertools.product`: a tuple is produced iff it has one entry per axis and each entry is in its axis list |
| Grid.ProductLength | generators/patch.py:202 | the product has as many tuples as the product of the axis lengths |
| Grid.ProductSorted | generators/patch.py:202 | the product of increasing axis lists is in strictly increasing lexicographic order |
| Volumes.AllCoordsSpec | generators/patch.py:158 | the coordinates `np.argwhere` scans are exactly the in-shape ones, in row-major order |
| Volumes.Extract | generators/patch.py:118 | basic slicing never fails for up to rank-many slices, and it keeps the rank |
| Volumes.ExtractInBounds | generators/patch.py:118 | with in-bounds slices, the result has extent stop - start per axis, and its index idx reads the source at start + idx |
| Volumes.Lookup | generators/patch.py:205 | integer indexing succeeds iff there is one index per axis, each in [-n, n), and then reads the voxel with negative indices counted from the end (`Wrapped`) |
| PatchGeometry.AxisSpan | generators/patch.py:133-135 | the slice around c has length d, extends ceil(d/2) below c and floor(d/2) above it |
| PatchGeometry.PatchSlice | generators/patch.py:135 | the tuple is a whole channel slice, then one span per spatial axis; zip stops at the shorter of center and patch shape |
| PatchGeometry.PatchInBoundsIffValid | generators/patch.py:133-135 | a patch lies inside a (C, X, Y, Z) image iff its center is in [ceil(d/2), n - floor(d/2)] on every spatial axis |
| PatchGeometry.LowBorderEmptiesAxis | generators/patch.py:133-135 | a center below ceil(d/2) on an axis at least d long gets a negative slice start, and numpy then reads an empty axis |
| PatchGeometry.HighBorderTruncatesAxis | generators/patch.py:133-135 | a center past n - floor(d/2) inside the axis gets a patch axis cut at the end of the axis, shorter than d |
| PatchGeometry.PatchExtract | generators/patch.py:118 | the patch of a valid center has shape (C, d0, d1, d2), and its voxel (ch, i, j, k) is the image voxel at center - ceil(d/2) + (i, j, k) |
| PatchGeometry.GetPatchSlice | generators/patch.py:126-136 | a single center, or a list of one, gives one tuple; a longer list gives one tuple per center in order; an empty list raises IndexError |
| UniformCenters.CenterGridMembership | generators/patch.py:198-202 | with positive steps, the grid `CenterGrid` holds exactly the centers ceil(d/2) + k * step below n - floor(d/2) on every axis |
| UniformCenters.CenterGridOrder | generators/patch.py:201-202 | the grid is in strictly increasing row-major order and has one center per combination of axis values |
| UniformCenters.GridCentersInBounds | generators/patch.py:198-202 | every grid center is valid, so its patch lies inside the volume, and the grid never reaches n - floor(d/2) |
| UniformCenters.MaskTest | generators/patch.py:205 | a center or mask of rank below 3 raises IndexError; with a rank-3 mask the test succeeds iff each of c[0], c[1], c[2] lies in [-n, n) of its axis (so a mask smaller than the volume raises IndexError), and then reads `mask[c] != 0` with negative indices counted from the end; with a mask of higher rank it succeeds iff every extent past the third is 1, and then reads that one element; it fails only with IndexError or ValueError |
| UniformCenters.TrailingSingletonMask | generators/patch.py:205 | an (X, Y, Z, 1) mask is tested through its single trailing element, while an (X, Y, Z, 2) mask raises ValueError |
| UniformCenters.FilterByMask | generators/patch.py:205 | the masked list succeeds iff every test succeeds; it then keeps exactly the centers whose test is true, in grid order |
| UniformCenters.SampleCentersUniform | generators/patch.py:181-209 | AssertionError iff the ranks of volume, patch, steps (and mask) differ; otherwise ValueError for a zero step, with or without a mask; otherwise the grid, or its masked subsequence, resampled when a count is given; a failing mask test is passed on |
| UniformCenters.MaskedGridFilters | generators/patch.py:204-205 | with a mask of the volume's shape, the result is exactly the grid centers whose mask voxel is nonzero, in grid order |
| UniformCenters.TooSmallVolumeGivesNoCenters | generators/patch.py:201-202 | an axis no longer than the patch leaves no center at all |
| UniformCenters.TenCubeExample | generators/patch.py:181-209 | a 10x10x10 volume with 3x3x3 patches and step 5 gives the 8 centers of {2, 7} cubed, in row-major order |
| BalancedCenters.Unique | generators/patch.py:154 | `np.unique`: strictly increasing, with exactly the input's values |
| BalancedCenters.LabelIds | generators/patch.py:154-156 | the label ids are increasing and are exactly the values of the label image that are not excluded |
| BalancedCenters.LabelCoordsSpec | generators/patch.py:158 | a label's coordinate list (`LabelCoords`) holds exactly the in-shape voxels carrying the label, in increasing row-major order |
| BalancedCenters.Clip | generators/patch.py:173-175 | `np.clip` lands in [lo, hi] when lo <= hi, leaves values inside unchanged, and gives hi when lo > hi |
| BalancedCenters.ClipOutside | generators/patch.py:173-175 | a value below a non-empty range becomes lo and a value above it becomes hi, so with `Clip`'s contract the result is fixed for every input |
| BalancedCenters.Truncate | generators/patch.py:175 | `astype(int)` rounds toward zero |
| BalancedCenters.PlaceCoord | generators/patch.py:165-175 | whatever the offset, one coordinate lands on a valid center when the patch fits the axis and on n - floor(d/2) when it does not; a valid coordinate without offset is unchanged |
| BalancedCenters.PlaceCoordOffset | generators/patch.py:165-175 | the offset is added before clipping: x + off inside [ceil(d/2), n - floor(d/2)] gives its truncation toward zero, below gives ceil(d/2) and above gives n - floor(d/2) |
| BalancedCenters.PlaceCenter | generators/patch.py:165-175 | a placed center keeps its rank; each axis is a valid center where the patch fits and n - floor(d/2) where it does not; without jitter every already-valid axis is unchanged |
| BalancedCenters.PlaceCenterAxis | generators/patch.py:165-175 | axis a of the center at list position j is placed with offset `offset(j, a)`, the same draw for every label, or 0 without jitter |
| BalancedCenters.SampleCentersBalanced | generators/patch.py:141-178 | AssertionError iff the ranks differ; ValueError when no label id remains. Otherwise: IndexError iff offsets are requested and some resampled list is empty; ValueError iff not, but some row lacks the patch rank; success iff neither. On success, the result is the concatenation in id order of each label's resampled list, offset and clipped |
| BalancedCenters.BalancedCentersInRange | generators/patch.py:171-178 | every returned center is valid on every axis the patch fits in, whatever the offsets |
| BalancedCenters.BalancedLabelOrder | generators/patch.py:177-178 | the j-th center of the k-th label sits right after the centers of the labels before it |
| Sampling.FirstChannel | generators/patch.py:43 | `img[0]` has the spatial shape and reads channel 0 |
| Sampling.Quota | generators/patch.py:41 | the per-image quota ceil(n / k) over k images covers n and overshoots by less than k; no images raise ZeroDivisionError |
| Sampling.UniformOfImage | generators/patch.py:43-46 | image i's list is `sample_centers_uniform` of its first channel's shape, with mask i when masks are given; an image without a first channel raises IndexError |
| Sampling.SampleUniform | generators/patch.py:40-46 | one center list per image, or per (image, mask) pair up to the shorter list; list i is image i's uniform sample with the quota ceil(n / number of images), or no quota without a count; it succeeds iff every per-image sample does; a count with no images raises ZeroDivisionError |
| Sampling.ShapesMatch | generators/patch.py:57 | true iff every image's first channel has its label image's shape |
| Sampling.SampleBalanced | generators/patch.py:55-62 | AssertionError when the counts differ or a first channel's shape differs from its label image's; the IndexError of an image without a first channel; ZeroDivisionError with no images. On success there is one list per label image, and list i is the balanced sample of label image i with the per-image quota |
| Sampling.SampleBalancedOutcome | generators/patch.py:55-62 | success iff the counts agree and are nonzero, the shapes match and every per-label sample succeeds; past the asserts, a failure is the error of the first failing label image |
| Sampling.SampleCenters | generators/patch.py:91 | a sampler yields at most one center list per image, and exactly one per image for the balanced strategy and for the uniform one without masks |
| Sampling.BalancedCentersFitImages | generators/patch.py:55-62 | every balanced center of image i is valid for that image on every axis the patch fits |
| Sampling.UniformCentersFitImages | generators/patch.py:40-46 | without a count and with positive steps, every uniform center's patch lies inside its image |
| PatchSets.ParseNormalize | generators/patch.py:83 | exactly 'none', 'patch' and 'image' are accepted, each as its own mode |
| PatchSets.BuildInstructionAt | generators/patch.py:93-109 | the j-th center of image i becomes instruction (sum of earlier list lengths) + j, with image index i, that center, the patch shape, the image's normalizer and no augmentation |
| PatchSets.BuildInstructions | generators/patch.py:93-109 | the construction loop emits one instruction per center |
| PatchSets.BuildInstructionsImageMajor | generators/patch.py:93-109 | instructions are grouped by image in increasing image order |
| PatchSets.CenterLists | generators/patch.py:91 | supplied centers are used as given; a sampler never yields more lists than images |
| PatchSets.Build | generators/patch.py:70-111 | each of the five asserts (`InitAsserts`: rank-4 images, a rank-3 patch shape, a known normalize mode, a sampler when no centers are given, one center list per image) raises AssertionError when it fails; on success the instructions are the per-image expansion of the center lists |
| PatchSets.BuildOutcome | generators/patch.py:81-91 | once the asserts pass, construction succeeds iff the center lists can be had, and otherwise raises the sampler's error |
| PatchSets.GetItem | generators/patch.py:116-123 | an index outside [-len, len) raises IndexError; an item is the patch slice of the instruction's image, normalized and then augmented when those functions are present |
| PatchSets.GetItemSucceeds | generators/patch.py:116-123 | an index inside [-len, len) yields an item iff the instruction's image exists and has at least as many axes as the slice tuple |
| PatchSets.PatchSetLayout | generators/patch.py:93-114 | `len(patch_set)` (`Len`) is the total number of centers; instruction k is the (image, center) pair at flattened position k, and the image order never decreases |
| PatchSets.NormalizerPerImage | generators/patch.py:95-105 | each instruction carries the identity, per-patch normalization, or the statistics of its own image |
| PatchSets.BuiltItemSucceeds | generators/patch.py:116-123 | every index in [-len, len) of a built PatchSet yields an item, in every normalize mode and for every center, including centers at or past the border |
| PatchSets.ItemIsExactPatch | generators/patch.py:116-123 | with 'none', the item for a valid center is the (C, d0, d1, d2) box of its image around that center |
| Binarization.Binarize | postprocessing/binarization.py:55 | a voxel is foreground iff its probability is strictly above the threshold |
| Binarization.BinarizeMonotone | postprocessing/binarization.py:55 | raising the threshold never turns a background voxel into foreground |
| Binarization.SizeOf | postprocessing/binarization.py:63 | a component's volume is at most the number of voxels, and it is positive iff some foreground voxel carries its label |
| Binarization.LesionVolumes | postprocessing/binarization.py:60-63 | entry k is the voxel count of component k + 1, one entry per component |
| Binarization.VolumesPartitionForeground | postprocessing/binarization.py:58-63 | under a well-formed labelling, the component volumes sum to the number of foreground voxels |
| Binarization.ToIgnore | postprocessing/binarization.py:68-69 | the ignored ids are exactly the one-based ids whose volume is below the minimum size, in increasing order |
| Binarization.Reconstruct | postprocessing/binarization.py:66-74 | all zero without components; otherwise a voxel keeps its label iff it is labelled and its component is not too small, and is zeroed otherwise |
| Binarization.ReconstructKeepsLargeComponents | postprocessing/binarization.py:55-74 | under a well-formed labelling, a voxel survives iff it is above the threshold and its component reaches the minimum size; a component is kept or removed as a whole |
| Binarization.ReconstructMonotone | postprocessing/binarization.py:65-72 | raising the minimum size never brings back a voxel that a smaller minimum removed |
| Binarization.ThreshSize | postprocessing/binarization.py:54-74 | a voxel is 0 or keeps the label the labeller gives it for the volume's own shape; under a well-formed labelling it survives iff its probability is above the threshold and its component has at least the minimum size |
| ThreshSizeSearch.Pairs | postprocessing/binarization.py:82-85 | the product has one name per (threshold, size) pair, each built from a listed threshold and size |
| ThreshSizeSearch.PairsIndex | postprocessing/binarization.py:82-85 | threshold i and size j sit at position i * (number of sizes) + j |
| ThreshSizeSearch.PairsCount | postprocessing/binarization.py:40-42 | a name occurs as often as its threshold occurs times as often as its size occurs |
| ThreshSizeSearch.SearchResultCell | postprocessing/binarization.py:80-88 | output cell (i, j) is named after threshold i and size j, and aggregates every present sample's score, repeated once per duplicate of the pair |
| ThreshSizeSearch.AppendSample | postprocessing/binarization.py:54-77 | one sample appends its score to each cell's list once per occurrence of the cell's name |
| ThreshSizeSearch.Accumulate | postprocessing/binarization.py:39-77 | after the sample loop, each cell's list holds every present sample's score, in sample order, once per occurrence of the cell's name |
| ThreshSizeSearch.Search | postprocessing/binarization.py:37-90 | the dictionary-based search returns exactly the declarative result: the cells in product order, each aggregating its accumulated list |
| ThreshSizeSearch.SearchInefficient | postprocessing/binarization.py:11-34 | KeyError iff some sample has no probabilities; otherwise one cell per pair in product order, aggregating the binarizer's result on every sample in order |
| ThreshSizeSearch.RecordsOnce | postprocessing/binarization.py:46-77 | with all samples present and no duplicates, a cell's list is the per-sample score list |
| ThreshSizeSearch.RecordsConcat | postprocessing/binarization.py:46-77 | the records of two runs of samples are the records of each run, in order |
| ThreshSizeSearch.SkipMissing | postprocessing/binarization.py:48-49 | a sample missing from the result set changes no cell's list |
| ThreshSizeSearch.SearchesAgree | postprocessing/binarization.py:11-90 | with every sample present, distinct thresholds and sizes, and a binarizer that reconstructs as the efficient search does, both searches return the same output |
| ThreshSizeSearch.DuplicateThresholdDoubles | postprocessing/binarization.py:11-42 | a threshold listed twice makes both of its cells aggregate every score twice in the efficient search, and once in the inefficient search |

## Left out

- Floating-point numerics are not modelled. This covers `_norm_patch`, the per-image means and standard deviations, and `(x - m) / s`. They are opaque functions; the model only tracks which one an instruction carries and the order it is applied in.
- `resample_list`, `np.random` and `ndimage.label` are function parameters. So are the segmentation metrics, their averaging and `ThreshSizeBinarizer`, because their code is not part of this model.
- `parallel_load` is modelled as a plain map over the label images that returns the results in argument order. Its workers are not modelled.
- Several details are not represented:
  - the conversion of the patch to a torch tensor and its dtype;
  - the `print` calls and the progress bar;
  - the `float16` cast of the uniform mask.
- UniformCenters.MaskTest: a mask of rank above 3 whose extents past the third include a 0 raises ValueError here, as numpy 2.2 and later do. Older numpy returned False for such an empty sub-array, with a deprecation warning.
- BalancedCenters.SampleCentersBalanced: it does not model ragged per-label arrays. Unequal row lengths are reported as ValueError and not reproduced.
- BalancedCenters.SampleCentersBalanced: the random offset is added as real numbers, as if `resample_list` returned a float array. `resample_list` is not part of this model. If it returns a list, `+=` extends the list with the offset rows instead. If it returns an integer array, numpy refuses the in-place float addition and raises. Neither outcome is modelled.
- Patch extents are natural numbers, so the model does not cover negative patch sizes.
- Thresholds and sizes are reals, so the model does not cover NaN. A Python `int` and `float` that are equal but print differently (`1` and `1.0`) are one name here, and so are `0.0` and `-0.0`. Python keeps them as separate dictionary keys and separate names.
- ThreshSizeSearch.Search: a name that occurs several times is one list here, as it is one dictionary key in the source. This is stated through `PairsCount`, not hidden.

=== FILE: balanced_centers.dfy ===
/** `sample_centers_balanced`: per-label voxel coordinates, resampled to an
    equal share each, optionally jittered, clamped into the valid center range
    and concatenated in label-id order. */
module BalancedCenters {
  import opened Base
  import opened Volumes
  import opened SeqUtil
  import Grid
  import opened PatchGeometry

  /** Insert x into a strictly increasing list unless it is already there. */
  function InsertSorted(x: int, s: seq<int>): (r: seq<int>)
    requires Grid.Increasing(s)
    ensures Grid.Increasing(r)
    ensures forall y :: y in r <==> y == x || y in s
  {
    if |s| == 0 then [x]
    else if x < s[0] then
      ConsIncreasing(x, s);
      [x] + s
    else if x == s[0] then s
    else
      var rest := InsertSorted(x, s[1..]);
      assert s == [s[0]] + s[1..];
      assert |rest| > 0 ==> rest[0] in rest;
      ConsIncreasing(s[0], rest);
      [s[0]] + rest
  }

  /** A head below the first element of an increasing list keeps it increasing. */
  lemma ConsIncreasing(h: int, t: seq<int>)
    requires Grid.Increasing(t) && (|t| > 0 ==> h < t[0])
    ensures Grid.Increasing([h] + t)
  {
    var r := [h] + t;
    forall i, j | 0 <= i < j < |r| ensures r[i] < r[j] {
      if i == 0 {
        assert r[j] == t[j - 1];
        assert j - 1 > 0 ==> t[0] < t[j - 1];
      } else {
        assert r[i] == t[i - 1] && r[j] == t[j - 1];
      }
    }
  }

  /** `np.unique(values).tolist()`: the distinct values in ascending order.
      Being strictly increasing with exactly the values' elements determines
      the list uniquely. */
  function Unique(values: seq<int>): (r: seq<int>)
    ensures Grid.Increasing(r)
    ensures forall y :: y in r <==> y in values
  {
    if |values| == 0 then []
    else
      var init := values[..|values| - 1];
      assert values == init + [values[|values| - 1]];
      InsertSorted(values[|values| - 1], Unique(init))
  }

  lemma {:induction false} FilterIncreasing(s: seq<int>, p: int -> bool)
    requires Grid.Increasing(s)
    ensures Grid.Increasing(Filter(s, p))
  {
    if |s| > 0 {
      FilterIncreasing(s[1..], p);
      var rest := Filter(s[1..], p);
      if p(s[0]) {
        if |rest| > 0 {
          assert rest[0] in s[1..];
        }
        ConsIncreasing(s[0], rest);
      }
    }
  }

  lemma {:induction false} FilterLexSorted(s: seq<seq<int>>, p: seq<int> -> bool)
    requires Grid.LexSorted(s)
    ensures Grid.LexSorted(Filter(s, p))
  {
    if |s| > 0 {
      FilterLexSorted(s[1..], p);
      var rest := Filter(s[1..], p);
      forall j | 0 <= j < |rest| ensures Grid.LexLess(s[0], rest[j]) {
        assert rest[j] in s[1..];
      }
    }
  }

  predicate Excluded(exclude: Option<seq<int>>, id: int)
  {
    exclude.Some? && id in exclude.value
  }

  /** `label_ids`: the distinct label values in ascending order, without the
      excluded ones. */
  function LabelIds(labelImg: Volume<int>, exclude: Option<seq<int>>): (r: seq<int>)
    ensures Grid.Increasing(r)
    ensures forall y :: y in r <==> y in Values(labelImg) && !Excluded(exclude, y)
  {
    var ids := Unique(Values(labelImg));
    if exclude.Some? then
      FilterIncreasing(ids, (i: int) => i !in exclude.value);
      Filter(ids, (i: int) => i !in exclude.value)
    else ids
  }

  /** `np.argwhere(label_img == label_id)`: the coordinates carrying the label,
      in row-major order. */
  function LabelCoords(labelImg: Volume<int>, id: int): seq<seq<int>>
  {
    Filter(AllCoords(labelImg.shape), (c: seq<int>) => labelImg.at(c) == id)
  }

  /** Before resampling, a label's list holds exactly the in-shape coordinates
      that carry the label, each once, in increasing row-major order. */
  lemma LabelCoordsSpec(labelImg: Volume<int>, id: int, c: seq<int>)
    ensures c in LabelCoords(labelImg, id) <==> InShape(labelImg.shape, c) && labelImg.at(c) == id
    ensures Grid.LexSorted(LabelCoords(labelImg, id))
  {
    AllCoordsSpec(labelImg.shape, c);
    FilterLexSorted(AllCoords(labelImg.shape), (c: seq<int>) => labelImg.at(c) == id);
  }

  /** `np.clip(x, a_min=lo, a_max=hi)`, elementwise min(max(x, lo), hi): when
      lo > hi the result is hi. */
  function Clip(x: real, lo: int, hi: int): (r: real)
    ensures lo <= hi ==> lo as real <= r <= hi as real
    ensures lo <= hi && lo as real <= x <= hi as real ==> r == x
    ensures lo > hi ==> r == hi as real
  {
    var m := if x < lo as real then lo as real else x;
    if m > hi as real then hi as real else m
  }

  /** Outside the range np.clip returns the nearer bound: lo below it (when
      the range is not empty) and hi above it. With the contract of `Clip`
      this determines the result for every x. */
  lemma ClipOutside(x: real, lo: int, hi: int)
    ensures lo <= hi && x < lo as real ==> Clip(x, lo, hi) == lo as real
    ensures x > hi as real ==> Clip(x, lo, hi) == hi as real
  {
  }

  /** `.astype(int)`: truncation toward zero. */
  function Truncate(x: real): (r: int)
    ensures x >= 0.0 ==> r as real <= x < r as real + 1.0
    ensures x < 0.0 ==> r as real - 1.0 < x <= r as real
  {
    if x >= 0.0 then x.Floor else -((-x).Floor)
  }

  /** The random offsets: `offset(j, a)` is what is added to axis a of the
      j-th center of a label's list. numpy reseeds with 0 before each label,
      so every label sees the same offsets; the model allows any reals. */
  type Offsets = (nat, nat) -> real

  /** The offsets in force: those drawn when `add_rand_offset` is set, none otherwise. */
  function Jitter(addRandOffset: bool, offset: Offsets): Option<Offsets>
  {
    if addRandOffset then Some(offset) else None
  }

  /** Offset, clip and cast one coordinate on an axis of extent n for a
      patch extent d: the result always lies in [ceil(d/2), n - floor(d/2)]
      when the patch fits, is n - floor(d/2) when it does not, and is the
      coordinate itself when it was already valid and no offset is added. */
  function PlaceCoord(x: int, off: real, d: nat, n: nat): (r: int)
    ensures d <= n ==> CenterInRange(r, d, n)
    ensures d > n ==> r == n - FloorHalf(d)
    ensures off == 0.0 && CenterInRange(x, d, n) ==> r == x
  {
    var lo, hi := CeilHalf(d), n - FloorHalf(d);
    var m := Clip(x as real + off, lo, hi);
    assert lo <= hi ==> lo as real <= m;
    Truncate(m)
  }

  /** The offset is added before clipping: a jittered coordinate inside the
      valid range is truncated toward zero, one below it becomes ceil(d/2)
      and one above it n - floor(d/2). With the contract of `PlaceCoord`
      this fixes the result for every offset. */
  lemma PlaceCoordOffset(x: int, off: real, d: nat, n: nat)
    ensures CeilHalf(d) as real <= x as real + off <= (n - FloorHalf(d)) as real ==>
      PlaceCoord(x, off, d, n) == Truncate(x as real + off)
    ensures d <= n && x as real + off < CeilHalf(d) as real ==> PlaceCoord(x, off, d, n) == CeilHalf(d)
    ensures x as real + off > (n - FloorHalf(d)) as real ==> PlaceCoord(x, off, d, n) == n - FloorHalf(d)
  {
    ClipOutside(x as real + off, CeilHalf(d), n - FloorHalf(d));
  }

  /** Offset, clip and cast one center: j is its position in its label's list,
      `shape` the label volume's shape. */
  function PlaceCenter(c: seq<int>, j: nat, patchShape: seq<nat>, shape: seq<nat>,
                       offset: Option<Offsets>): (r: seq<int>)
    requires |c| == |patchShape| == |shape|
    ensures |r| == |c|
    ensures forall a :: 0 <= a < |r| && patchShape[a] <= shape[a] ==>
      CenterInRange(r[a], patchShape[a], shape[a])
    ensures forall a :: 0 <= a < |r| && patchShape[a] > shape[a] ==>
      r[a] == shape[a] - FloorHalf(patchShape[a])
    ensures offset.None? ==> forall a :: 0 <= a < |r| && CenterInRange(c[a], patchShape[a], shape[a]) ==>
      r[a] == c[a]
  {
    var offs := seq(|c|, a requires 0 <= a < |c| => if offset.Some? then offset.value(j, a) else 0.0);
    var r := seq(|c|, a requires 0 <= a < |c| => PlaceCoord(c[a], offs[a], patchShape[a], shape[a]));
    assert forall a :: 0 <= a < |c| ==> r[a] == PlaceCoord(c[a], offs[a], patchShape[a], shape[a]);
    r
  }

  /** Axis a of the center at list position j is placed with the offset
      drawn for (j, a), or with no offset when jitter is off. */
  lemma PlaceCenterAxis(c: seq<int>, j: nat, patchShape: seq<nat>, shape: seq<nat>,
                        offset: Option<Offsets>, a: nat)
    requires |c| == |patchShape| == |shape| && a < |c|
    ensures PlaceCenter(c, j, patchShape, shape, offset)[a] ==
      PlaceCoord(c[a], if offset.Some? then offset.value(j, a) else 0.0, patchShape[a], shape[a])
  {
  }

  /** The clip loop applied to one label's list. */
  function PlaceAll(cs: seq<seq<int>>, patchShape: seq<nat>, shape: seq<nat>, offset: Option<Offsets>): (r: seq<seq<int>>)
    requires |patchShape| == |shape|
    requires forall j :: 0 <= j < |cs| ==> |cs[j]| == |patchShape|
    ensures |r| == |cs|
    ensures forall j :: 0 <= j < |r| ==> r[j] == PlaceCenter(cs[j], j, patchShape, shape, offset)
  {
    seq(|cs|, j requires 0 <= j < |cs| => PlaceCenter(cs[j], j, patchShape, shape, offset))
  }

  /** The resampled list of every label id, in id order. */
  function Picked(labelImg: Volume<int>, ids: seq<int>, target: real, resample: Resampler): (r: seq<seq<seq<int>>>)
    ensures |r| == |ids|
    ensures forall k :: 0 <= k < |ids| ==> r[k] == resample(LabelCoords(labelImg, ids[k]), target)
  {
    seq(|ids|, k requires 0 <= k < |ids| => resample(LabelCoords(labelImg, ids[k]), target))
  }

  predicate RowsHaveRank(picked: seq<seq<seq<int>>>, rank: nat)
  {
    forall k, j :: 0 <= k < |picked| && 0 <= j < |picked[k]| ==> |picked[k][j]| == rank
  }

  /** The per-label lists after the offset and clip loops. */
  function Placed(picked: seq<seq<seq<int>>>, patchShape: seq<nat>, shape: seq<nat>, offset: Option<Offsets>): (r: seq<seq<seq<int>>>)
    requires |patchShape| == |shape| && RowsHaveRank(picked, |patchShape|)
    ensures |r| == |picked|
    ensures forall k :: 0 <= k < |r| ==> r[k] == PlaceAll(picked[k], patchShape, shape, offset)
  {
    seq(|picked|, k requires 0 <= k < |picked| => PlaceAll(picked[k], patchShape, shape, offset))
  }

  /** `sample_centers_balanced(label_img, patch_shape, num_centers,
      add_rand_offset, exclude)`. It raises when the ranks differ, when no
      label id is left (np.concatenate of nothing), when offsets are requested
      and a resampled list is empty (`label_centers[0]`), and when a resampled
      row does not have the patch rank (numpy broadcasting). */
  function SampleCentersBalanced(labelImg: Volume<int>, patchShape: seq<nat>, numCenters: nat,
                                 addRandOffset: bool, exclude: Option<seq<int>>,
                                 resample: Resampler, offset: Offsets): (r: Result<seq<seq<int>>>)
    ensures r == Err(AssertionFailed) <==> |labelImg.shape| != |patchShape|
    ensures |labelImg.shape| == |patchShape| && LabelIds(labelImg, exclude) == [] ==> r == Err(ValueError)
    ensures var ids := LabelIds(labelImg, exclude);
      |labelImg.shape| == |patchShape| && |ids| > 0 ==>
      var picked := Picked(labelImg, ids, numCenters as real / |ids| as real, resample);
      var emptyList := addRandOffset && exists k :: 0 <= k < |picked| && picked[k] == [];
      (r == Err(IndexError) <==> emptyList) &&
      (r == Err(ValueError) <==> !emptyList && !RowsHaveRank(picked, |patchShape|)) &&
      (r.Ok? <==> !emptyList && RowsHaveRank(picked, |patchShape|))
    ensures r.Ok? ==>
      var ids := LabelIds(labelImg, exclude);
      var picked := Picked(labelImg, ids, numCenters as real / |ids| as real, resample);
      |ids| > 0 && |labelImg.shape| == |patchShape| && RowsHaveRank(picked, |patchShape|) &&
      (addRandOffset ==> forall k :: 0 <= k < |picked| ==> picked[k] != []) &&
      r.value == Flatten(Placed(picked, patchShape, labelImg.shape, Jitter(addRandOffset, offset)))
  {
    if |labelImg.shape| != |patchShape| then Err(AssertionFailed)
    else
      var ids := LabelIds(labelImg, exclude);
      if |ids| == 0 then Err(ValueError)
      else
        var picked := Picked(labelImg, ids, numCenters as real / |ids| as real, resample);
        if addRandOffset && exists k :: 0 <= k < |picked| && picked[k] == [] then Err(IndexError)
        else if !RowsHaveRank(picked, |patchShape|) then Err(ValueError)
        else Ok(Flatten(Placed(picked, patchShape, labelImg.shape, Jitter(addRandOffset, offset))))
  }

  /** Whatever the offsets, every returned center is valid on every axis the
      patch fits in: ceil(d/2) <= c[a] <= shape[a] - floor(d/2). */
  lemma BalancedCentersInRange(labelImg: Volume<int>, patchShape: seq<nat>, numCenters: nat,
                               addRandOffset: bool, exclude: Option<seq<int>>,
                               resample: Resampler, offset: Offsets, c: seq<int>)
    requires SampleCentersBalanced(labelImg, patchShape, numCenters, addRandOffset, exclude, resample, offset).Ok?
    requires c in SampleCentersBalanced(labelImg, patchShape, numCenters, addRandOffset, exclude, resample, offset).value
    ensures |c| == |patchShape| == |labelImg.shape|
    ensures forall a :: 0 <= a < |c| && patchShape[a] <= labelImg.shape[a] ==>
      CenterInRange(c[a], patchShape[a], labelImg.shape[a])
  {
    var ids := LabelIds(labelImg, exclude);
    var picked := Picked(labelImg, ids, numCenters as real / |ids| as real, resample);
    PlacedInRange(picked, patchShape, labelImg.shape, Jitter(addRandOffset, offset), c);
  }

  /** Every center of the joined, clipped lists has the patch rank and is
      valid on every axis the patch fits in. */
  lemma PlacedInRange(picked: seq<seq<seq<int>>>, patchShape: seq<nat>, shape: seq<nat>,
                      offset: Option<Offsets>, c: seq<int>)
    requires |patchShape| == |shape| && RowsHaveRank(picked, |patchShape|)
    requires c in Flatten(Placed(picked, patchShape, shape, offset))
    ensures |c| == |patchShape|
    ensures forall a :: 0 <= a < |c| && patchShape[a] <= shape[a] ==> CenterInRange(c[a], patchShape[a], shape[a])
  {
    var placed := Placed(picked, patchShape, shape, offset);
    InFlatten(placed, c);
    var k :| 0 <= k < |placed| && c in placed[k];
    var j :| 0 <= j < |placed[k]| && placed[k][j] == c;
    assert c == PlaceCenter(picked[k][j], j, patchShape, shape, offset);
  }

  /** The output lists the labels one after another in ascending id order:
      the j-th center of the k-th id's resampled list, offset and clipped,
      sits at position (sum of the earlier lists' lengths) + j. */
  lemma BalancedLabelOrder(labelImg: Volume<int>, patchShape: seq<nat>, numCenters: nat,
                           addRandOffset: bool, exclude: Option<seq<int>>,
                           resample: Resampler, offset: Offsets, out: seq<seq<int>>,
                           ids: seq<int>, picked: seq<seq<seq<int>>>, k: nat, j: nat)
    requires SampleCentersBalanced(labelImg, patchShape, numCenters, addRandOffset, exclude, resample, offset) == Ok(out)
    requires ids == LabelIds(labelImg, exclude) && |ids| > 0
    requires picked == Picked(labelImg, ids, numCenters as real / |ids| as real, resample)
    requires k < |picked| && j < |picked[k]|
    ensures |picked[k][j]| == |patchShape| == |labelImg.shape|
    ensures var pos := SumLens(Placed(picked, patchShape, labelImg.shape, Jitter(addRandOffset, offset))[..k]) + j;
      pos < |out| && out[pos] == PlaceCenter(picked[k][j], j, patchShape, labelImg.shape, Jitter(addRandOffset, offset))
  {
    var jitter := Jitter(addRandOffset, offset);
    assert |labelImg.shape| == |patchShape| && RowsHaveRank(picked, |patchShape|) &&
      out == Flatten(Placed(picked, patchShape, labelImg.shape, jitter)) by {
      var r := SampleCentersBalanced(labelImg, patchShape, numCenters, addRandOffset, exclude, resample, offset);
      assert r.Ok? && r.value == out;
    }
    PlacedOrder(picked, patchShape, labelImg.shape, jitter, out, k, j);
  }

  /** In the joined lists, the j-th center of list k sits after all centers of
      the lists before it. */
  lemma PlacedOrder(picked: seq<seq<seq<int>>>, patchShape: seq<nat>, shape: seq<nat>,
                    offset: Option<Offsets>, out: seq<seq<int>>, k: nat, j: nat)
    requires |patchShape| == |shape| && RowsHaveRank(picked, |patchShape|)
    requires out == Flatten(Placed(picked, patchShape, shape, offset))
    requires k < |picked| && j < |picked[k]|
    ensures |picked[k][j]| == |patchShape|
    ensures var pos := SumLens(Placed(picked, patchShape, shape, offset)[..k]) + j;
      pos < |out| && out[pos] == PlaceCenter(picked[k][j], j, patchShape, shape, offset)
  {
    var placed := Placed(picked, patchShape, shape, offset);
    assert placed[k] == PlaceAll(picked[k], patchShape, shape, offset);
    FlattenIndex(placed, k, j);
  }
}

=== FILE: base.dfy ===
/** Vocabulary shared by the whole model: the Python exceptions the code can
    raise, a Result wrapper for them, the ceiling/floor half extents used by
    every patch computation, and Python's negative list subscripts. */
module Base {

  /** The exception classes the modelled code can raise. */
  datatype Error =
    | AssertionFailed   // a Python `assert` statement failed
    | IndexError        // a subscript out of range (list or ndarray)
    | ValueError        // range() with step 0, np.concatenate of nothing, a broadcast mismatch
    | ZeroDivision      // a division by len(...) == 0
    | KeyError          // a dictionary lookup of a missing key

  /** Either the value a Python call returns or the exception it raises. */
  datatype Result<+T> = Ok(value: T) | Err(error: Error) {
    predicate IsFailure() {
      Err?
    }

    function PropagateFailure<U>(): Result<U>
      requires Err?
    {
      Err(error)
    }

    function Extract(): T
      requires Ok?
    {
      value
    }
  }

  /** Python's optional arguments (`x=None`). */
  datatype Option<+T> = None | Some(value: T)

  /** `resample_list` of the utils package (not part of this model): it turns a
      list of coordinates into a list of (roughly) the requested length. It is
      left uninterpreted; nothing is assumed about what it returns. */
  type Resampler = (seq<seq<int>>, real) -> seq<seq<int>>

  /** `int(np.ceil(d / 2.0))`: the span of a patch below its center. */
  function CeilHalf(d: nat): (h: nat)
    ensures 2 * h == d || 2 * h == d + 1
  {
    (d + 1) / 2
  }

  /** `int(np.floor(d / 2.0))`: the span of a patch from its center upwards. */
  function FloorHalf(d: nat): (h: nat)
    ensures 2 * h == d || 2 * h + 1 == d
    ensures h <= CeilHalf(d) <= h + 1 && h + CeilHalf(d) == d
  {
    d / 2
  }

  /** `int(np.ceil(n / k))`: the per-partition quota when n items are shared
      among k partitions. */
  function CeilDiv(n: nat, k: nat): (q: nat)
    requires k > 0
    ensures k * q >= n
    ensures k * q < n + k
  {
    var q := (n + k - 1) / k;
    assert k * q <= n + k - 1 && n + k - 1 < k * q + k;
    q
  }

  /** Python's `xs[i]` on a list of length n: the position it reads, or None
      when it raises IndexError. Negative subscripts count from the end. */
  function PyIndex(i: int, n: nat): (r: Option<nat>)
    ensures r.Some? <==> -(n as int) <= i < n
    ensures r.Some? ==> r.value < n && (r.value == i || r.value == i + n)
  {
    if 0 <= i < n then Some(i)
    else if -(n as int) <= i < 0 then Some(i + n)
    else None
  }

  function Min(a: int, b: int): (m: int)
    ensures m <= a && m <= b && (m == a || m == b)
  {
    if a <= b then a else b
  }

  /** A Python loop that stops at the first exception: all the values when
      every step succeeds, otherwise the first step's error. */
  function Collect<T>(rs: seq<Result<T>>): (r: Result<seq<T>>)
    ensures r.Ok? <==> forall i :: 0 <= i < |rs| ==> rs[i].Ok?
    ensures r.Ok? ==> |r.value| == |rs| && forall i :: 0 <= i < |rs| ==> r.value[i] == rs[i].value
    ensures r.Err? ==> |rs| > 0 && (rs[0].Err? ==> r == Err(rs[0].error))
    ensures r.Err? ==> exists i :: 0 <= i < |rs| && rs[i] == Err(r.error) && forall j :: 0 <= j < i ==> rs[j].Ok?
  {
    if |rs| == 0 then Ok([])
    else
      var v :- rs[0];
      var rest :- Collect(rs[1..]);
      assert forall i :: 1 <= i < |rs| ==> rs[i] == rs[1..][i - 1];
      Ok([v] + rest)
  }
}

=== FILE: binarize.dfy ===
/** The per-threshold, per-size binarization step of the threshold and
    lesion-size search: threshold a probability volume, label its connected
    components, measure them, and zero out the ones below the minimum size.
    A probability volume is its shape plus its voxels in row-major order; the
    connected-component labeller, a parameter, sees both. */
module Binarization {

  /** The result of `ndimage.label`: one label per voxel (0 for background)
      and the number of components. */
  datatype Labelling = Labelling(labels: seq<nat>, count: nat)

  /** A probability volume as `result_set` holds it: its shape and its voxels
      in row-major order. */
  datatype ProbVolume = ProbVolume(shape: seq<nat>, probs: seq<real>)

  /** `ndimage.label`, whose connectivity analysis is outside this model: the
      label it gives voxel i of a mask of the given shape, and the number of
      components. Which voxels are neighbours depends on the shape, so two
      masks with the same voxels but different shapes may be labelled
      differently. */
  datatype Labeller = Labeller(labelOf: (seq<nat>, seq<bool>, nat) -> nat, count: (seq<nat>, seq<bool>) -> nat)

  /** The labelled volume and component count of a mask of the given shape;
      it has the mask's shape, as `ndimage.label`'s output does. */
  function Label(lb: Labeller, shape: seq<nat>, mask: seq<bool>): (l: Labelling)
    ensures |l.labels| == |mask|
    ensures forall i :: 0 <= i < |mask| ==> l.labels[i] == lb.labelOf(shape, mask, i)
    ensures l.count == lb.count(shape, mask)
  {
    var labels := seq(|mask|, i requires 0 <= i < |mask| => lb.labelOf(shape, mask, i));
    assert forall i :: 0 <= i < |labels| ==> labels[i] == lb.labelOf(shape, mask, i);
    Labelling(labels, lb.count(shape, mask))
  }

  /** What a labeller promises about its output for a mask: one label per
      voxel, 0 exactly on the background, every label at most the count. */
  predicate WellFormed(mask: seq<bool>, l: Labelling)
  {
    |l.labels| == |mask| &&
    forall i :: 0 <= i < |mask| ==> (l.labels[i] == 0 <==> !mask[i]) && l.labels[i] <= l.count
  }

  /** `lesion_probs > thresh`: strictly greater, so a voxel equal to the
      threshold is background. */
  function Binarize(probs: seq<real>, t: real): (m: seq<bool>)
    ensures |m| == |probs|
    ensures forall i :: 0 <= i < |m| ==> (m[i] <==> probs[i] > t)
  {
    seq(|probs|, i requires 0 <= i < |probs| => probs[i] > t)
  }

  /** Raising the threshold never adds a voxel to the foreground. */
  lemma BinarizeMonotone(probs: seq<real>, t1: real, t2: real, i: nat)
    requires t1 <= t2 && i < |probs|
    ensures Binarize(probs, t2)[i] ==> Binarize(probs, t1)[i]
  {
  }

  /** The `np.sum` of the boolean mask over the voxels carrying label k, as
      `labeled_comprehension` computes it. */
  function SizeOf(mask: seq<bool>, labels: seq<nat>, k: nat): (r: nat)
    requires |mask| == |labels|
    ensures r <= |mask|
    ensures r > 0 <==> exists i :: 0 <= i < |mask| && mask[i] && labels[i] == k
    decreases |mask|
  {
    if |mask| == 0 then 0
    else
      var n := |mask| - 1;
      var rest := SizeOf(mask[..n], labels[..n], k);
      assert forall i :: 0 <= i < n ==> mask[..n][i] == mask[i] && labels[..n][i] == labels[i];
      rest + (if mask[n] && labels[n] == k then 1 else 0)
  }

  /** `labeled_comprehension(y_prob, labelled, arange(1, n + 1), np.sum, ...)`:
      the size of each component, component k + 1 at position k. */
  function LesionVolumes(mask: seq<bool>, l: Labelling): (r: seq<nat>)
    requires |l.labels| == |mask|
    ensures |r| == l.count
    ensures forall k :: 0 <= k < l.count ==> r[k] == SizeOf(mask, l.labels, k + 1)
  {
    seq(l.count, k requires 0 <= k < l.count => SizeOf(mask, l.labels, k + 1))
  }

  /** The number of foreground voxels. */
  function CountTrue(mask: seq<bool>): nat
  {
    if |mask| == 0 then 0 else CountTrue(mask[..|mask| - 1]) + (if mask[|mask| - 1] then 1 else 0)
  }

  function Sum(xs: seq<nat>): nat
  {
    if |xs| == 0 then 0 else Sum(xs[..|xs| - 1]) + xs[|xs| - 1]
  }

  /** The sizes of components 1..K summed. */
  function SizesUpTo(mask: seq<bool>, labels: seq<nat>, K: nat): nat
    requires |mask| == |labels|
  {
    if K == 0 then 0 else SizesUpTo(mask, labels, K - 1) + SizeOf(mask, labels, K)
  }

  /** Appending one voxel adds one to the sizes up to K exactly when it is
      foreground with a label in 1..K. */
  lemma {:induction false} SizesUpToSnoc(mask: seq<bool>, labels: seq<nat>, K: nat)
    requires |mask| == |labels| && |mask| > 0
    ensures var n := |mask| - 1;
      SizesUpTo(mask, labels, K) ==
        SizesUpTo(mask[..n], labels[..n], K) + (if mask[n] && 1 <= labels[n] <= K then 1 else 0)
  {
    if K > 0 {
      SizesUpToSnoc(mask, labels, K - 1);
    }
  }

  lemma {:induction false} SizesUpToEmpty(mask: seq<bool>, labels: seq<nat>, K: nat)
    requires |mask| == |labels| == 0
    ensures SizesUpTo(mask, labels, K) == 0
  {
    if K > 0 {
      SizesUpToEmpty(mask, labels, K - 1);
    }
  }

  lemma {:induction false} SizesUpToCount(mask: seq<bool>, l: Labelling)
    requires WellFormed(mask, l)
    ensures SizesUpTo(mask, l.labels, l.count) == CountTrue(mask)
    decreases |mask|
  {
    if |mask| > 0 {
      var n := |mask| - 1;
      var prefix := Labelling(l.labels[..n], l.count);
      assert WellFormed(mask[..n], prefix);
      SizesUpToCount(mask[..n], prefix);
      SizesUpToSnoc(mask, l.labels, l.count);
      assert mask[n] ==> 1 <= l.labels[n] <= l.count;
    } else {
      SizesUpToEmpty(mask, l.labels, l.count);
    }
  }

  lemma {:induction false} SumLesionVolumes(mask: seq<bool>, l: Labelling, K: nat)
    requires |l.labels| == |mask| && K <= l.count
    ensures Sum(LesionVolumes(mask, l)[..K]) == SizesUpTo(mask, l.labels, K)
  {
    if K > 0 {
      SumLesionVolumes(mask, l, K - 1);
      assert LesionVolumes(mask, l)[..K][..K - 1] == LesionVolumes(mask, l)[..K - 1];
    }
  }

  /** The component volumes partition the foreground: under a well-formed
      labelling they add up to the number of voxels above the threshold. */
  lemma VolumesPartitionForeground(mask: seq<bool>, l: Labelling)
    requires WellFormed(mask, l)
    ensures Sum(LesionVolumes(mask, l)) == CountTrue(mask)
  {
    SumLesionVolumes(mask, l, l.count);
    assert LesionVolumes(mask, l)[..l.count] == LesionVolumes(mask, l);
    SizesUpToCount(mask, l);
  }

  /** `lesions_to_ignore`: the one-based ids of the components whose volume is
      below the minimum size, in increasing order. */
  function ToIgnore(volumes: seq<nat>, s: real): (r: seq<nat>)
    ensures forall x :: x in r <==> 1 <= x <= |volumes| && (volumes[x - 1] as real) < s
    ensures forall i, j :: 0 <= i < j < |r| ==> r[i] < r[j]
    ensures forall i :: 0 <= i < |r| ==> r[i] <= |volumes|
  {
    if |volumes| == 0 then []
    else
      var n := |volumes| - 1;
      var rest := ToIgnore(volumes[..n], s);
      assert forall i :: 0 <= i < n ==> volumes[..n][i] == volumes[i];
      rest + (if (volumes[n] as real) < s then [n + 1] else [])
  }

  /** `rec_vol`: with no components an all-zero volume; otherwise the
      labelled volume with the ignored components set to 0. Kept voxels keep
      their component label. */
  function Reconstruct(mask: seq<bool>, l: Labelling, s: real): (r: seq<nat>)
    requires |l.labels| == |mask|
    ensures |r| == |mask|
    ensures l.count == 0 ==> forall i :: 0 <= i < |r| ==> r[i] == 0
    ensures forall i :: 0 <= i < |r| ==> r[i] == 0 || r[i] == l.labels[i]
    ensures l.count > 0 ==> forall i :: 0 <= i < |r| ==>
      (r[i] != 0 <==> l.labels[i] != 0 && (l.labels[i] > l.count || SizeOf(mask, l.labels, l.labels[i]) as real >= s))
  {
    if l.count == 0 then seq(|mask|, i => 0)
    else
      var ignore := ToIgnore(LesionVolumes(mask, l), s);
      seq(|mask|, i requires 0 <= i < |mask| => if l.labels[i] in ignore then 0 else l.labels[i])
  }

  /** Under a well-formed labelling a voxel survives exactly when it is above
      the threshold and its component has at least the minimum size; the
      decision is the same for every voxel of one component. */
  lemma ReconstructKeepsLargeComponents(mask: seq<bool>, l: Labelling, s: real, i: nat, j: nat)
    requires WellFormed(mask, l) && i < |mask| && j < |mask|
    ensures Reconstruct(mask, l, s)[i] != 0 <==> mask[i] && SizeOf(mask, l.labels, l.labels[i]) as real >= s
    ensures l.labels[i] == l.labels[j] ==> (Reconstruct(mask, l, s)[i] != 0 <==> Reconstruct(mask, l, s)[j] != 0)
  {
    if l.count == 0 {
      assert !mask[i];
    }
  }

  /** Raising the minimum size never brings a voxel back. */
  lemma ReconstructMonotone(mask: seq<bool>, l: Labelling, s1: real, s2: real, i: nat)
    requires |l.labels| == |mask| && s1 <= s2 && i < |mask|
    ensures Reconstruct(mask, l, s2)[i] != 0 ==> Reconstruct(mask, l, s1)[i] != 0
  {
  }

  /** The reconstructed volume for one threshold and one minimum size; the
      mask is labelled with the volume's own shape. */
  function ThreshSize(p: ProbVolume, t: real, s: real, labeller: Labeller): (r: seq<nat>)
    ensures |r| == |p.probs|
    ensures WellFormed(Binarize(p.probs, t), Label(labeller, p.shape, Binarize(p.probs, t))) ==>
      forall i :: 0 <= i < |r| ==> r[i] != 0 ==> p.probs[i] > t
    ensures forall i :: 0 <= i < |r| ==> r[i] == 0 || r[i] == labeller.labelOf(p.shape, Binarize(p.probs, t), i)
    ensures var mask := Binarize(p.probs, t);
      var l := Label(labeller, p.shape, mask);
      WellFormed(mask, l) ==> forall i :: 0 <= i < |r| ==>
        (r[i] != 0 <==> p.probs[i] > t && SizeOf(mask, l.labels, l.labels[i]) as real >= s)
  {
    var mask := Binarize(p.probs, t);
    Reconstruct(mask, Label(labeller, p.shape, mask), s)
  }
}

=== FILE: grid.dfy ===
/** Python's `range` and `itertools.product`, the two building blocks of the
    uniform center grid and of numpy's row-major voxel order. */
module Grid {

  /** `list(range(start, stop, step))`; the caller rules out step 0, which
      makes Python raise ValueError. */
  function PyRange(start: int, stop: int, step: int): (r: seq<int>)
    requires step != 0
    ensures forall i :: 0 <= i < |r| ==> r[i] == start + i * step
    ensures step > 0 ==> forall i :: 0 <= i < |r| ==> r[i] < stop
    ensures step < 0 ==> forall i :: 0 <= i < |r| ==> r[i] > stop
    ensures (step > 0 && start >= stop) || (step < 0 && start <= stop) <==> r == []
    decreases if step > 0 then stop - start else start - stop
  {
    if (step > 0 && start < stop) || (step < 0 && start > stop) then
      var rest := PyRange(start + step, stop, step);
      assert forall i :: 1 <= i < |rest| + 1 ==> rest[i - 1] == start + i * step by {
        forall i | 1 <= i < |rest| + 1
          ensures rest[i - 1] == start + i * step
        {
          assert rest[i - 1] == start + step + (i - 1) * step;
          assert (i - 1) * step + step == i * step;
        }
      }
      [start] + rest
    else
      []
  }

  /** A multiple of step leaves remainder 0, and a remainder 0 means a multiple. */
  lemma ModMultiple(q: int, step: int)
    requires step > 0
    ensures (q * step) % step == 0
  {
    var a := q * step;
    var d, m := a / step, a % step;
    assert a == step * d + m && 0 <= m < step;
    assert step * (q - d) == m;
    assert q - d >= 1 ==> step * (q - d) >= step;
    assert q - d <= -1 ==> step * (q - d) <= -step;
  }

  lemma ModZeroStep(a: int, step: int)
    requires step > 0 && a > 0 && a % step == 0
    ensures a >= step && (a - step) % step == 0
  {
    var d := a / step;
    assert a == step * d;
    assert d <= 0 ==> step * d <= 0;
    assert a - step == (d - 1) * step;
    ModMultiple(d - 1, step);
  }

  /** Every element of a range with a positive step lies in [start, stop)
      on the arithmetic progression. */
  lemma RangeElementOnProgression(start: int, stop: int, step: int, i: nat)
    requires step > 0 && i < |PyRange(start, stop, step)|
    ensures var x := PyRange(start, stop, step)[i];
      start <= x < stop && (x - start) % step == 0
  {
    var x := PyRange(start, stop, step)[i];
    assert x - start == i * step;
    ModMultiple(i, step);
    assert i * step >= 0;
  }

  /** Every value of the progression in [start, stop) is an element. */
  lemma {:induction false} ProgressionInRange(start: int, stop: int, step: int, x: int)
    requires step > 0
    requires start <= x < stop && (x - start) % step == 0
    ensures x in PyRange(start, stop, step)
    decreases stop - start
  {
    var r := PyRange(start, stop, step);
    if x == start {
      assert r[0] == x;
    } else {
      ModZeroStep(x - start, step);
      assert x - (start + step) == x - start - step;
      ProgressionInRange(start + step, stop, step, x);
      assert r == [start] + PyRange(start + step, stop, step);
    }
  }

  /** With a positive step the range holds exactly the values of the arithmetic
      progression that lie in [start, stop). */
  lemma PyRangeMembership(start: int, stop: int, step: int, x: int)
    requires step > 0
    ensures x in PyRange(start, stop, step) <==> start <= x < stop && (x - start) % step == 0
  {
    var r := PyRange(start, stop, step);
    if x in r {
      var i :| 0 <= i < |r| && r[i] == x;
      RangeElementOnProgression(start, stop, step, i);
    }
    if start <= x < stop && (x - start) % step == 0 {
      ProgressionInRange(start, stop, step, x);
    }
  }

  /** `len(range(start, stop, step))`: the number of steps from start that
      stay strictly before stop, counted from either side for a negative step. */
  function RangeLen(start: int, stop: int, step: int): nat
    requires step != 0
  {
    if step > 0 then (if start < stop then (stop - start - 1) / step + 1 else 0)
    else (if start > stop then (start - stop - 1) / (-step) + 1 else 0)
  }

  /** Euclidean division is determined by any decomposition x == s * q + m
      with 0 <= m < s. */
  lemma DivUnique(x: int, s: int, q: int, m: int)
    requires s > 0 && x == s * q + m && 0 <= m < s
    ensures x / s == q
  {
    var d, e := x / s, x % s;
    assert x == s * d + e && 0 <= e < s;
    assert s * (q - d) == e - m;
    assert q - d >= 1 ==> s * (q - d) >= s;
    assert q - d <= -1 ==> s * (q - d) <= -s;
  }

  /** One more step of s adds one to the quotient. */
  lemma DivStep(x: int, s: int)
    requires s > 0 && x >= s
    ensures x / s == (x - s) / s + 1
  {
    var q, m := (x - s) / s, (x - s) % s;
    assert x == s * (q + 1) + m;
    DivUnique(x, s, q + 1, m);
  }

  /** With a positive step the range has exactly `len(range(...))` elements. */
  lemma {:induction false} PyRangeLengthUp(start: int, stop: int, step: int)
    requires step > 0
    ensures |PyRange(start, stop, step)| == RangeLen(start, stop, step)
    decreases stop - start
  {
    if start < stop {
      var x := stop - start - 1;
      PyRangeLengthUp(start + step, stop, step);
      assert |PyRange(start, stop, step)| == 1 + |PyRange(start + step, stop, step)|;
      if start + step < stop {
        DivStep(x, step);
        assert stop - (start + step) - 1 == x - step;
      } else {
        DivUnique(x, step, 0, x);
      }
    }
  }

  /** A range with a negative step is the elementwise negation of the range
      with all three arguments negated; in particular both are equally long. */
  lemma {:induction false} PyRangeNegate(start: int, stop: int, step: int)
    requires step < 0
    ensures |PyRange(start, stop, step)| == |PyRange(-start, -stop, -step)|
    ensures forall i :: 0 <= i < |PyRange(start, stop, step)| ==>
      PyRange(start, stop, step)[i] == -PyRange(-start, -stop, -step)[i]
    decreases start - stop
  {
    if start > stop {
      PyRangeNegate(start + step, stop, step);
      assert -(start + step) == -start + -step;
      assert |PyRange(start, stop, step)| == 1 + |PyRange(start + step, stop, step)|;
      assert |PyRange(-start, -stop, -step)| == 1 + |PyRange(-start + -step, -stop, -step)|;
    }
    var r, n := PyRange(start, stop, step), PyRange(-start, -stop, -step);
    forall i | 0 <= i < |r| ensures r[i] == -n[i] {
      assert r[i] == start + i * step && n[i] == -start + i * -step;
    }
  }

  /** `len(range(start, stop, step))` holds for either sign of the step. */
  lemma PyRangeLength(start: int, stop: int, step: int)
    requires step != 0
    ensures |PyRange(start, stop, step)| == RangeLen(start, stop, step)
  {
    if step > 0 {
      PyRangeLengthUp(start, stop, step);
    } else {
      PyRangeNegate(start, stop, step);
      PyRangeLengthUp(-start, -stop, -step);
      assert -stop - -start - 1 == start - stop - 1;
    }
  }

  /** x is in a range with a negative step iff -x is in the negated range. */
  lemma InNegatedRange(start: int, stop: int, step: int, x: int)
    requires step < 0
    ensures x in PyRange(start, stop, step) <==> -x in PyRange(-start, -stop, -step)
  {
    var r, n := PyRange(start, stop, step), PyRange(-start, -stop, -step);
    PyRangeNegate(start, stop, step);
    if x in r {
      var i :| 0 <= i < |r| && r[i] == x;
      assert n[i] == -x;
    }
    if -x in n {
      var i :| 0 <= i < |n| && n[i] == -x;
      assert r[i] == x;
    }
  }

  /** With a negative step the range holds exactly the values of the
      progression start, start + step, ... that lie in (stop, start]. */
  lemma PyRangeMembershipDown(start: int, stop: int, step: int, x: int)
    requires step < 0
    ensures x in PyRange(start, stop, step) <==> stop < x <= start && (start - x) % (-step) == 0
  {
    InNegatedRange(start, stop, step, x);
    PyRangeMembership(-start, -stop, -step, -x);
    assert -x - -start == start - x;
  }

  /** `a` precedes `b` in lexicographic order (coordinates of equal length). */
  predicate LexLess(a: seq<int>, b: seq<int>)
  {
    |a| > 0 && |b| > 0 && (a[0] < b[0] || (a[0] == b[0] && LexLess(a[1..], b[1..])))
  }

  /** Strictly increasing in lexicographic order, hence free of duplicates. */
  predicate LexSorted(s: seq<seq<int>>)
  {
    forall i, j :: 0 <= i < j < |s| ==> LexLess(s[i], s[j])
  }

  predicate Increasing(s: seq<int>)
  {
    forall i, j :: 0 <= i < j < |s| ==> s[i] < s[j]
  }

  /** `[[h] + t for t in tails]`: one block of the product. */
  function Block(h: int, tails: seq<seq<int>>): (r: seq<seq<int>>)
    ensures |r| == |tails| && forall k :: 0 <= k < |r| ==> r[k] == [h] + tails[k]
  {
    seq(|tails|, k requires 0 <= k < |tails| => [h] + tails[k])
  }

  /** `[[h] + t for h in heads for t in tails]`. */
  function PrependEach(heads: seq<int>, tails: seq<seq<int>>): seq<seq<int>>
  {
    if |heads| == 0 then [] else Block(heads[0], tails) + PrependEach(heads[1..], tails)
  }

  /** `[list(c) for c in itertools.product(*dims)]`. */
  function Product(dims: seq<seq<int>>): seq<seq<int>>
  {
    if |dims| == 0 then [[]] else PrependEach(dims[0], Product(dims[1..]))
  }

  /** Product of the lengths of the axes. */
  function GridSize(dims: seq<seq<int>>): nat
  {
    if |dims| == 0 then 1 else |dims[0]| * GridSize(dims[1..])
  }

  lemma {:induction false} PrependEachLength(heads: seq<int>, tails: seq<seq<int>>)
    ensures |PrependEach(heads, tails)| == |heads| * |tails|
  {
    if |heads| > 0 {
      PrependEachLength(heads[1..], tails);
      assert |heads| * |tails| == |tails| + (|heads| - 1) * |tails|;
    }
  }

  lemma {:induction false} PrependEachMember(heads: seq<int>, tails: seq<seq<int>>, c: seq<int>)
    ensures c in PrependEach(heads, tails) <==> |c| > 0 && c[0] in heads && c[1..] in tails
  {
    if |heads| > 0 {
      PrependEachMember(heads[1..], tails, c);
      var b := Block(heads[0], tails);
      assert PrependEach(heads, tails) == b + PrependEach(heads[1..], tails);
      if c in b {
        var k :| 0 <= k < |b| && b[k] == c;
        assert c[1..] == tails[k];
      }
      if |c| > 0 && c[0] == heads[0] && c[1..] in tails {
        var k :| 0 <= k < |tails| && tails[k] == c[1..];
        assert b[k] == c;
      }
      if |c| > 0 && c[0] in heads {
        assert c[0] == heads[0] || c[0] in heads[1..];
      }
    }
  }

  /** The product has one element per combination of axis values. */
  lemma {:induction false} ProductLength(dims: seq<seq<int>>)
    ensures |Product(dims)| == GridSize(dims)
  {
    if |dims| > 0 {
      ProductLength(dims[1..]);
      PrependEachLength(dims[0], Product(dims[1..]));
    }
  }

  /** A coordinate is in the product iff it picks one value from each axis. */
  lemma {:induction false} ProductMembership(dims: seq<seq<int>>, c: seq<int>)
    ensures c in Product(dims) <==> |c| == |dims| && forall a :: 0 <= a < |dims| ==> c[a] in dims[a]
  {
    if |dims| == 0 {
    } else {
      PrependEachMember(dims[0], Product(dims[1..]), c);
      if |c| > 0 {
        ProductMembership(dims[1..], c[1..]);
        if |c| == |dims| && forall a :: 0 <= a < |dims| ==> c[a] in dims[a] {
          assert forall a :: 0 <= a < |dims| - 1 ==> c[1..][a] == c[a + 1];
        }
        if c in Product(dims) {
          assert c[1..] in Product(dims[1..]);
          forall a | 0 <= a < |dims| ensures c[a] in dims[a] {
            if a > 0 {
              assert c[1..][a - 1] == c[a];
            }
          }
        }
      }
    }
  }

  lemma {:induction false} ConcatSorted(x: seq<seq<int>>, y: seq<seq<int>>)
    requires LexSorted(x) && LexSorted(y)
    requires forall i, j :: 0 <= i < |x| && 0 <= j < |y| ==> LexLess(x[i], y[j])
    ensures LexSorted(x + y)
  {
  }

  lemma {:induction false} PrependEachSorted(heads: seq<int>, tails: seq<seq<int>>)
    requires Increasing(heads) && LexSorted(tails)
    ensures LexSorted(PrependEach(heads, tails))
    ensures forall c :: c in PrependEach(heads, tails) ==> |c| > 0 && c[0] in heads
  {
    if |heads| > 0 {
      var b := Block(heads[0], tails);
      var rest := PrependEach(heads[1..], tails);
      PrependEachSorted(heads[1..], tails);
      forall i, j | 0 <= i < j < |b| ensures LexLess(b[i], b[j]) {
        assert b[i][1..] == tails[i] && b[j][1..] == tails[j];
      }
      forall i, j | 0 <= i < |b| && 0 <= j < |rest| ensures LexLess(b[i], rest[j]) {
        assert rest[j] in rest;
        var k :| 0 <= k < |heads[1..]| && heads[1..][k] == rest[j][0];
        assert heads[0] < heads[k + 1];
      }
      ConcatSorted(b, rest);
    }
  }

  /** When every axis is increasing the product is strictly increasing in
      lexicographic order; with ProductMembership this pins it down as THE
      lexicographic enumeration of the Cartesian product, without duplicates. */
  lemma {:induction false} ProductSorted(dims: seq<seq<int>>)
    requires forall a :: 0 <= a < |dims| ==> Increasing(dims[a])
    ensures LexSorted(Product(dims))
  {
    if |dims| > 0 {
      ProductSorted(dims[1..]);
      PrependEachSorted(dims[0], Product(dims[1..]));
    }
  }

  lemma PyRangeIncreasing(start: int, stop: int, step: int)
    requires step > 0
    ensures Increasing(PyRange(start, stop, step))
  {
    var r := PyRange(start, stop, step);
    forall i, j | 0 <= i < j < |r| ensures r[i] < r[j] {
      MulMonotone(i, j, step);
    }
  }

  lemma MulMonotone(i: nat, j: nat, step: int)
    requires i < j && step > 0
    ensures i * step < j * step
  {
    assert j * step - i * step == (j - i) * step;
  }

  /** An axis without values leaves the product empty. */
  lemma {:induction false} ProductEmptyAxis(dims: seq<seq<int>>, a: nat)
    requires a < |dims| && dims[a] == []
    ensures Product(dims) == []
  {
    ProductLength(dims);
    GridSizeZero(dims, a);
  }

  lemma {:induction false} GridSizeZero(dims: seq<seq<int>>, a: nat)
    requires a < |dims| && dims[a] == []
    ensures GridSize(dims) == 0
  {
    if a > 0 {
      GridSizeZero(dims[1..], a - 1);
    }
  }
}

=== FILE: patch_geometry.dfy ===
/** `_get_patch_slice`: the index tuple that cuts a patch out of a
    (C, X, Y, Z) image around a center. */
module PatchGeometry {
  import opened Base
  import opened Volumes

  /** The slice of one spatial axis: ceil(d/2) voxels below the center and
      floor(d/2) from the center upwards, `slice(c - ceil(d/2), c + floor(d/2))`. */
  function AxisSpan(c: int, d: nat): (s: Slice)
    ensures s.Span? && s.stop - s.start == d
    ensures 0 <= s.stop - c <= c - s.start <= s.stop - c + 1
    ensures s.start + s.stop == 2 * c - d % 2
  {
    Span(c - CeilHalf(d), c + FloorHalf(d))
  }

  /** The index tuple for one center: the channel axis whole, then one span per
      spatial axis (Python's zip stops at the shorter of center and shape). */
  function PatchSlice(center: seq<int>, shape: seq<nat>): (r: seq<Slice>)
    ensures |r| == 1 + Min(|center|, |shape|)
    ensures r[0] == Whole
    ensures forall a :: 0 <= a < |r| - 1 ==> r[a + 1] == AxisSpan(center[a], shape[a])
  {
    [Whole] + seq(Min(|center|, |shape|), a requires 0 <= a < Min(|center|, |shape|) => AxisSpan(center[a], shape[a]))
  }

  /** A center is valid for extent n and patch extent d when the whole patch
      fits: ceil(d/2) <= c <= n - floor(d/2). */
  predicate CenterInRange(c: int, d: nat, n: nat)
  {
    CeilHalf(d) <= c <= n - FloorHalf(d)
  }

  /** Every slice of a patch lies inside a (C, X, Y, Z) image exactly when
      the center is valid on every spatial axis. */
  lemma PatchInBoundsIffValid(center: seq<int>, shape: seq<nat>, imageShape: seq<nat>)
    requires |center| == |shape| == 3 && |imageShape| == 4
    ensures (forall a :: 0 <= a < 4 ==> SliceInBounds(PatchSlice(center, shape)[a], imageShape[a])) <==>
      (forall a :: 0 <= a < 3 ==> CenterInRange(center[a], shape[a], imageShape[a + 1]))
  {
    var r := PatchSlice(center, shape);
    assert r[1] == AxisSpan(center[0], shape[0]);
    assert r[2] == AxisSpan(center[1], shape[1]);
    assert r[3] == AxisSpan(center[2], shape[2]);
  }

  /** Near the lower border the slice start is negative, so numpy counts it
      from the end of the axis: on an axis at least as long as the patch, a
      center below ceil(d/2) gives an empty axis, not a shorter one. */
  lemma LowBorderEmptiesAxis(c: int, d: nat, n: nat)
    requires d <= n && 0 <= c < CeilHalf(d)
    ensures AxisSpan(c, d).start < 0 && SliceExtent(AxisSpan(c, d), n) == 0
  {
  }

  /** Near the upper border numpy clips the stop to the axis length: a center
      past n - floor(d/2) but inside the axis keeps the voxels from its start
      to the end of the axis, fewer than d of them. */
  lemma HighBorderTruncatesAxis(c: int, d: nat, n: nat)
    requires CeilHalf(d) <= c <= n && c > n - FloorHalf(d)
    ensures SliceExtent(AxisSpan(c, d), n) == n - (c - CeilHalf(d)) < d
  {
  }

  /** Cutting the patch of a valid center out of a (C, X, Y, Z) image gives
      a (C, d0, d1, d2) volume whose index (ch, i, j, k) is the image voxel
      (ch, c0 - ceil(d0/2) + i, c1 - ceil(d1/2) + j, c2 - ceil(d2/2) + k). */
  lemma PatchExtract<T>(img: Volume<T>, center: seq<int>, shape: seq<nat>, idx: seq<int>)
    requires |center| == |shape| == 3 && |img.shape| == 4
    requires forall a :: 0 <= a < 3 ==> CenterInRange(center[a], shape[a], img.shape[a + 1])
    ensures Extract(img, PatchSlice(center, shape)).Ok?
    ensures Extract(img, PatchSlice(center, shape)).value.shape == [img.shape[0], shape[0], shape[1], shape[2]]
    ensures InShape(Extract(img, PatchSlice(center, shape)).value.shape, idx) ==>
      Extract(img, PatchSlice(center, shape)).value.at(idx) ==
        img.at([idx[0], center[0] - CeilHalf(shape[0]) + idx[1],
                center[1] - CeilHalf(shape[1]) + idx[2], center[2] - CeilHalf(shape[2]) + idx[3]])
  {
    PatchInBoundsIffValid(center, shape, img.shape);
    PatchExtractShape(img, center, shape);
    if InShape(Extract(img, PatchSlice(center, shape)).value.shape, idx) {
      PatchExtractVoxel(img, center, shape, idx);
    }
  }

  lemma PatchExtractShape<T>(img: Volume<T>, center: seq<int>, shape: seq<nat>)
    requires |center| == |shape| == 3 && |img.shape| == 4
    requires forall a :: 0 <= a < 4 ==> SliceInBounds(PatchSlice(center, shape)[a], img.shape[a])
    ensures Extract(img, PatchSlice(center, shape)).Ok?
    ensures Extract(img, PatchSlice(center, shape)).value.shape == [img.shape[0], shape[0], shape[1], shape[2]]
  {
    var slices := PatchSlice(center, shape);
    ExtractInBounds(img, slices, []);
    var e := Extract(img, slices).value;
    assert slices[0] == Whole;
    assert slices[1] == AxisSpan(center[0], shape[0]);
    assert slices[2] == AxisSpan(center[1], shape[1]);
    assert slices[3] == AxisSpan(center[2], shape[2]);
    assert |e.shape| == 4;
    forall a | 0 <= a < 4 ensures e.shape[a] == [img.shape[0], shape[0], shape[1], shape[2]][a] { }
  }

  lemma PatchExtractVoxel<T>(img: Volume<T>, center: seq<int>, shape: seq<nat>, idx: seq<int>)
    requires |center| == |shape| == 3 && |img.shape| == 4
    requires forall a :: 0 <= a < 4 ==> SliceInBounds(PatchSlice(center, shape)[a], img.shape[a])
    requires InShape(Extract(img, PatchSlice(center, shape)).value.shape, idx)
    ensures Extract(img, PatchSlice(center, shape)).value.at(idx) ==
      img.at([idx[0], center[0] - CeilHalf(shape[0]) + idx[1],
              center[1] - CeilHalf(shape[1]) + idx[2], center[2] - CeilHalf(shape[2]) + idx[3]])
  {
    var slices := PatchSlice(center, shape);
    ExtractInBounds(img, slices, idx);
    assert slices[0] == Whole;
    assert slices[1] == AxisSpan(center[0], shape[0]);
    assert slices[2] == AxisSpan(center[1], shape[1]);
    assert slices[3] == AxisSpan(center[2], shape[2]);
    var src := seq(|idx|, a requires 0 <= a < |idx| =>
      (if a < |slices| && slices[a].Span? then slices[a].start else 0) + idx[a]);
    var want := [idx[0], center[0] - CeilHalf(shape[0]) + idx[1],
                 center[1] - CeilHalf(shape[1]) + idx[2], center[2] - CeilHalf(shape[2]) + idx[3]];
    assert |idx| == 4;
    assert src[0] == want[0] && src[1] == want[1] && src[2] == want[2] && src[3] == want[3];
    assert src == want;
  }

  /** The argument of `_get_patch_slice`: one center, or a list of centers. */
  datatype Centers = OneCenter(c: seq<int>) | CenterList(cs: seq<seq<int>>)

  /** Its return value: one index tuple, or a list of them. */
  datatype PatchSlices = OneTuple(t: seq<Slice>) | TupleList(ts: seq<seq<Slice>>)

  /** `_get_patch_slice(center, patch_shape)`. A single center, and a list of
      exactly one center, give one tuple; a longer list gives one tuple per
      center in the same order; an empty list raises IndexError. */
  function GetPatchSlice(centers: Centers, shape: seq<nat>): (r: Result<PatchSlices>)
    ensures r.Err? <==> centers == CenterList([])
    ensures r.Err? ==> r.error == IndexError
    ensures centers.OneCenter? ==> r == Ok(OneTuple(PatchSlice(centers.c, shape)))
    ensures centers.CenterList? && |centers.cs| == 1 ==> r == Ok(OneTuple(PatchSlice(centers.cs[0], shape)))
    ensures centers.CenterList? && |centers.cs| > 1 ==>
      r.Ok? && r.value.TupleList? && |r.value.ts| == |centers.cs| &&
      forall i :: 0 <= i < |centers.cs| ==> r.value.ts[i] == PatchSlice(centers.cs[i], shape)
  {
    var list := match centers
      case OneCenter(c) => [c]
      case CenterList(cs) => cs;
    var slices := seq(|list|, i requires 0 <= i < |list| => PatchSlice(list[i], shape));
    if |slices| > 1 then Ok(TupleList(slices))
    else if |slices| == 1 then Ok(OneTuple(slices[0]))
    else Err(IndexError)
  }
}

=== FILE: patch_set.dfy ===
/** `PatchSet`: the dataset that flattens (image, center) pairs into an
    ordered list of patch instructions and cuts, normalizes and augments one
    patch per index on demand. */
module PatchSets {
  import opened Base
  import opened Volumes
  import opened SeqUtil
  import opened PatchGeometry
  import Sampling

  /** The accepted values of the `normalize` argument. */
  datatype NormMode = NoNorm | PatchNorm | ImageNorm

  /** `assert normalize in ['none', 'patch', 'image']`. */
  function ParseNormalize(s: string): (r: Result<NormMode>)
    ensures r.Ok? <==> s == "none" || s == "patch" || s == "image"
    ensures r == Ok(NoNorm) <==> s == "none"
    ensures r == Ok(PatchNorm) <==> s == "patch"
    ensures r == Ok(ImageNorm) <==> s == "image"
  {
    if s == "none" then Ok(NoNorm)
    else if s == "patch" then Ok(PatchNorm)
    else if s == "image" then Ok(ImageNorm)
    else Err(AssertionFailed)
  }

  /** Per-channel means and standard deviations of one image. */
  datatype ChannelStats = ChannelStats(means: seq<real>, stds: seq<real>)

  /** The normalization an instruction carries: the identity, `_norm_patch`,
      or standardization with the statistics of one image, captured by value
      when the instruction is built. */
  datatype Normalizer = Identity | PerPatch | PerImage(stats: ChannelStats)

  /** The floating-point numerics of normalization, left opaque: the image
      statistics, `_norm_patch`, and `(x - m) / s`. */
  datatype FloatOps = FloatOps(statsOf: Volume<real> -> ChannelStats,
                               normPatch: Volume<real> -> Volume<real>,
                               standardize: (ChannelStats, Volume<real>) -> Volume<real>)

  function ApplyNormalizer(n: Normalizer, x: Volume<real>, ops: FloatOps): Volume<real>
  {
    match n
    case Identity => x
    case PerPatch => ops.normPatch(x)
    case PerImage(st) => ops.standardize(st, x)
  }

  /** `PatchInstruction`. */
  datatype Instruction = Instruction(idx: nat, center: seq<int>, shape: seq<nat>,
                                     normalize: Option<Normalizer>,
                                     augment: Option<Volume<real> -> Volume<real>>)

  datatype PatchSet = PatchSet(images: seq<Volume<real>>, instructions: seq<Instruction>)

  /** The `norm_func` built for one image's patches. */
  function NormalizerFor(mode: NormMode, img: Volume<real>, ops: FloatOps): Normalizer
  {
    match mode
    case NoNorm => Identity
    case PatchNorm => PerPatch
    case ImageNorm => PerImage(ops.statsOf(img))
  }

  /** The construction loop from image `base` on: one instruction per center,
      image by image. */
  function BuildInstructions(images: seq<Volume<real>>, cs: seq<seq<seq<int>>>, base: nat,
                             patchShape: seq<nat>, mode: NormMode, ops: FloatOps): (r: seq<Instruction>)
    requires base + |cs| <= |images|
    ensures |r| == SumLens(cs)
    decreases |cs|
  {
    if |cs| == 0 then []
    else
      var norm := NormalizerFor(mode, images[base], ops);
      seq(|cs[0]|, j requires 0 <= j < |cs[0]| => Instruction(base, cs[0][j], patchShape, Some(norm), None))
        + BuildInstructions(images, cs[1..], base + 1, patchShape, mode, ops)
  }

  /** The first image's instructions followed by the rest. */
  lemma BuildInstructionsUnfold(images: seq<Volume<real>>, cs: seq<seq<seq<int>>>, base: nat,
                                patchShape: seq<nat>, mode: NormMode, ops: FloatOps)
    requires base + |cs| <= |images| && |cs| > 0
    ensures var r := BuildInstructions(images, cs, base, patchShape, mode, ops);
      var rest := BuildInstructions(images, cs[1..], base + 1, patchShape, mode, ops);
      |r| == |cs[0]| + |rest| &&
      (forall k :: 0 <= k < |cs[0]| ==> r[k] == Instruction(base, cs[0][k], patchShape, Some(NormalizerFor(mode, images[base], ops)), None)) &&
      (forall k :: |cs[0]| <= k < |r| ==> r[k] == rest[k - |cs[0]|])
  {
  }

  /** The j-th center of the i-th list is instruction
      (sum of the earlier lists' lengths) + j: it carries image i, that center,
      the common patch shape, image i's normalizer and no augmentation. */
  lemma {:induction false} BuildInstructionAt(images: seq<Volume<real>>, cs: seq<seq<seq<int>>>, base: nat,
                                              patchShape: seq<nat>, mode: NormMode, ops: FloatOps, i: nat, j: nat)
    requires base + |cs| <= |images|
    requires i < |cs| && j < |cs[i]|
    ensures var r := BuildInstructions(images, cs, base, patchShape, mode, ops);
      var k := SumLens(cs[..i]) + j;
      k < |r| && r[k].idx == base + i && r[k].center == cs[i][j] && r[k].shape == patchShape &&
      r[k].normalize == Some(NormalizerFor(mode, images[base + i], ops)) && r[k].augment.None?
    decreases i
  {
    BuildInstructionsUnfold(images, cs, base, patchShape, mode, ops);
    if i == 0 {
      assert cs[..0] == [];
    } else {
      BuildInstructionAt(images, cs[1..], base + 1, patchShape, mode, ops, i - 1, j);
      assert cs[1..][..i - 1] == cs[..i][1..];
      assert SumLens(cs[..i]) == |cs[0]| + SumLens(cs[1..][..i - 1]);
    }
  }

  /** Image indices never decrease along the instruction list, and each lies
      among the images the lists belong to. */
  lemma {:induction false} BuildInstructionsImageMajor(images: seq<Volume<real>>, cs: seq<seq<seq<int>>>, base: nat,
                                                       patchShape: seq<nat>, mode: NormMode, ops: FloatOps,
                                                       k1: nat, k2: nat)
    requires base + |cs| <= |images|
    requires k1 <= k2 < |BuildInstructions(images, cs, base, patchShape, mode, ops)|
    ensures var r := BuildInstructions(images, cs, base, patchShape, mode, ops);
      base <= r[k1].idx <= r[k2].idx < base + |cs|
    decreases |cs|
  {
    BuildInstructionsUnfold(images, cs, base, patchShape, mode, ops);
    var rest := BuildInstructions(images, cs[1..], base + 1, patchShape, mode, ops);
    if k2 >= |cs[0]| {
      if k1 >= |cs[0]| {
        BuildInstructionsImageMajor(images, cs[1..], base + 1, patchShape, mode, ops, k1 - |cs[0]|, k2 - |cs[0]|);
      } else {
        BuildInstructionsImageMajor(images, cs[1..], base + 1, patchShape, mode, ops, k2 - |cs[0]|, k2 - |cs[0]|);
      }
    }
  }

  /** `images_centers`: the supplied centers when given, otherwise what the
      sampler returns. */
  function CenterLists(images: seq<Volume<real>>, patchShape: seq<nat>, sampling: Option<Sampling.Sampler>,
                       centers: Option<seq<seq<seq<int>>>>, collab: Sampling.Collaborators): (r: Result<seq<seq<seq<int>>>>)
    requires centers.Some? || sampling.Some?
    ensures centers.Some? ==> r == Ok(centers.value)
    ensures r.Ok? && centers.None? ==> |r.value| <= |images|
  {
    if centers.Some? then Ok(centers.value)
    else Sampling.SampleCenters(sampling.value, images, patchShape, collab)
  }

  /** The five asserts at the top of `PatchSet.__init__`: rank-4 images, a
      rank-3 patch shape, a known normalize mode, a sampler when no centers
      are given, and one center list per image when they are. */
  predicate InitAsserts(images: seq<Volume<real>>, patchShape: seq<nat>, sampling: Option<Sampling.Sampler>,
                        normalize: string, centers: Option<seq<seq<seq<int>>>>)
  {
    (forall i :: 0 <= i < |images| ==> |images[i].shape| == 4) && |patchShape| == 3 &&
    ParseNormalize(normalize).Ok? && (centers.None? ==> sampling.Some?) &&
    (centers.Some? ==> |centers.value| == |images|)
  }

  /** `PatchSet.__init__(images, patch_shape, sampling, normalize, centers=centers)`;
      `sampling` is None when the argument is not a PatchSampling. Supplied
      centers override sampling and must hold one list per image. */
  function Build(images: seq<Volume<real>>, patchShape: seq<nat>, sampling: Option<Sampling.Sampler>,
                 normalize: string, centers: Option<seq<seq<seq<int>>>>,
                 collab: Sampling.Collaborators, ops: FloatOps): (r: Result<PatchSet>)
    ensures r.Ok? ==> r.value.images == images
    ensures r.Ok? ==>
      (forall i :: 0 <= i < |images| ==> |images[i].shape| == 4) && |patchShape| == 3 &&
      ParseNormalize(normalize).Ok? && (centers.None? ==> sampling.Some?) &&
      (centers.Some? ==> |centers.value| == |images|)
    ensures !ParseNormalize(normalize).Ok? || |patchShape| != 3 ==> r == Err(AssertionFailed)
    ensures !InitAsserts(images, patchShape, sampling, normalize, centers) ==> r == Err(AssertionFailed)
    ensures r.Ok? ==>
      var cs := CenterLists(images, patchShape, sampling, centers, collab);
      cs.Ok? && |cs.value| <= |images| &&
      r.value.instructions == BuildInstructions(images, cs.value, 0, patchShape, ParseNormalize(normalize).value, ops)
  {
    if exists i :: 0 <= i < |images| && |images[i].shape| != 4 then Err(AssertionFailed)
    else if |patchShape| != 3 then Err(AssertionFailed)
    else
      var mode :- ParseNormalize(normalize);
      if centers.None? && sampling.None? then Err(AssertionFailed)
      else if centers.Some? && |centers.value| != |images| then Err(AssertionFailed)
      else
        var cs :- CenterLists(images, patchShape, sampling, centers, collab);
        Ok(PatchSet(images, BuildInstructions(images, cs, 0, patchShape, mode, ops)))
  }

  /** Once the five asserts pass, construction succeeds exactly when the
      center lists can be had, and otherwise raises the sampler's error. */
  lemma BuildOutcome(images: seq<Volume<real>>, patchShape: seq<nat>, sampling: Option<Sampling.Sampler>,
                     normalize: string, centers: Option<seq<seq<seq<int>>>>,
                     collab: Sampling.Collaborators, ops: FloatOps)
    ensures InitAsserts(images, patchShape, sampling, normalize, centers) ==>
      var r := Build(images, patchShape, sampling, normalize, centers, collab, ops);
      var cs := CenterLists(images, patchShape, sampling, centers, collab);
      (r.Ok? <==> cs.Ok?) && (cs.Err? ==> r == Err(cs.error))
  {
  }

  /** `len(patch_set)`. */
  function Len(ps: PatchSet): nat
  {
    |ps.instructions|
  }

  /** `patch_set[index]`: resolve the instruction (negative indices count from
      the end), cut the patch out of its image, then apply the normalize
      function and after it the augment function, each only when present. */
  function GetItem(ps: PatchSet, index: int, ops: FloatOps): (r: Result<Volume<real>>)
    ensures PyIndex(index, Len(ps)).None? ==> r == Err(IndexError)
    ensures r.Ok? ==>
      var instr := ps.instructions[PyIndex(index, Len(ps)).value];
      instr.idx < |ps.images| &&
      var patch := Extract(ps.images[instr.idx], PatchSlice(instr.center, instr.shape));
      patch.Ok? &&
      var normalized := if instr.normalize.Some? then ApplyNormalizer(instr.normalize.value, patch.value, ops) else patch.value;
      r.value == (if instr.augment.Some? then instr.augment.value(normalized) else normalized)
  {
    match PyIndex(index, Len(ps))
    case None => Err(IndexError)
    case Some(k) =>
      var instr := ps.instructions[k];
      if instr.idx >= |ps.images| then Err(IndexError)
      else
        var x :- Extract(ps.images[instr.idx], PatchSlice(instr.center, instr.shape));
        var y := match instr.normalize
          case Some(n) => ApplyNormalizer(n, x, ops)
          case None => x;
        Ok(match instr.augment
          case Some(f) => f(y)
          case None => y)
  }

  /** The layout of a built PatchSet: its length is the total number of
      centers, the j-th center of image i is instruction
      (sum of the earlier lists' lengths) + j, and instruction k belongs to the
      (image, center) pair that position k of the flattened lists holds. */
  lemma PatchSetLayout(images: seq<Volume<real>>, patchShape: seq<nat>, sampling: Option<Sampling.Sampler>,
                       normalize: string, centers: Option<seq<seq<seq<int>>>>,
                       collab: Sampling.Collaborators, ops: FloatOps, ps: PatchSet, cs: seq<seq<seq<int>>>)
    requires Build(images, patchShape, sampling, normalize, centers, collab, ops) == Ok(ps)
    requires CenterLists(images, patchShape, sampling, centers, collab) == Ok(cs)
    ensures Len(ps) == SumLens(cs)
    ensures forall k :: 0 <= k < Len(ps) ==>
      var p := Locate(cs, k);
      ps.instructions[k].idx == p.0 && ps.instructions[k].center == cs[p.0][p.1] &&
      ps.instructions[k].shape == patchShape && ps.instructions[k].augment.None?
    ensures forall k1, k2 :: 0 <= k1 <= k2 < Len(ps) ==> ps.instructions[k1].idx <= ps.instructions[k2].idx
  {
    var mode := ParseNormalize(normalize).value;
    assert |cs| <= |images| && ps.instructions == BuildInstructions(images, cs, 0, patchShape, mode, ops);
    InstructionsLayout(images, cs, patchShape, mode, ops);
  }

  /** The layout of the construction loop's output over the center lists. */
  lemma InstructionsLayout(images: seq<Volume<real>>, cs: seq<seq<seq<int>>>, patchShape: seq<nat>,
                           mode: NormMode, ops: FloatOps)
    requires |cs| <= |images|
    ensures var r := BuildInstructions(images, cs, 0, patchShape, mode, ops);
      forall k :: 0 <= k < |r| ==>
        var p := Locate(cs, k);
        r[k].idx == p.0 && r[k].center == cs[p.0][p.1] && r[k].shape == patchShape && r[k].augment.None?
    ensures var r := BuildInstructions(images, cs, 0, patchShape, mode, ops);
      forall k1, k2 :: 0 <= k1 <= k2 < |r| ==> r[k1].idx <= r[k2].idx
  {
    var r := BuildInstructions(images, cs, 0, patchShape, mode, ops);
    forall k | 0 <= k < |r|
      ensures var p := Locate(cs, k);
        r[k].idx == p.0 && r[k].center == cs[p.0][p.1] && r[k].shape == patchShape && r[k].augment.None?
    {
      var p := Locate(cs, k);
      BuildInstructionAt(images, cs, 0, patchShape, mode, ops, p.0, p.1);
    }
    forall k1, k2 | 0 <= k1 <= k2 < |r| ensures r[k1].idx <= r[k2].idx {
      BuildInstructionsImageMajor(images, cs, 0, patchShape, mode, ops, k1, k2);
    }
  }

  /** Instruction k of the construction loop refers to an existing image and
      carries the patch shape, that image's normalizer and no augmentation. */
  lemma InstructionOfImage(images: seq<Volume<real>>, cs: seq<seq<seq<int>>>, patchShape: seq<nat>,
                           mode: NormMode, ops: FloatOps, k: nat)
    requires |cs| <= |images| && k < |BuildInstructions(images, cs, 0, patchShape, mode, ops)|
    ensures var instr := BuildInstructions(images, cs, 0, patchShape, mode, ops)[k];
      instr.idx < |images| && instr.shape == patchShape && instr.augment.None? &&
      instr.normalize == Some(NormalizerFor(mode, images[instr.idx], ops))
  {
    var p := Locate(cs, k);
    BuildInstructionAt(images, cs, 0, patchShape, mode, ops, p.0, p.1);
  }

  /** Every instruction of a built PatchSet carries the normalizer of its own
      image: identity, per patch, or the statistics of that very image (never
      those of another image), so patches of one image share them. */
  lemma NormalizerPerImage(images: seq<Volume<real>>, patchShape: seq<nat>, sampling: Option<Sampling.Sampler>,
                           normalize: string, centers: Option<seq<seq<seq<int>>>>,
                           collab: Sampling.Collaborators, ops: FloatOps, ps: PatchSet, k: nat)
    requires Build(images, patchShape, sampling, normalize, centers, collab, ops) == Ok(ps)
    requires k < Len(ps)
    ensures ps.instructions[k].idx < |images|
    ensures ps.instructions[k].shape == patchShape && ps.instructions[k].augment.None?
    ensures ps.instructions[k].normalize == Some(match ParseNormalize(normalize).value
      case NoNorm => Identity
      case PatchNorm => PerPatch
      case ImageNorm => PerImage(ops.statsOf(images[ps.instructions[k].idx])))
  {
    var mode := ParseNormalize(normalize).value;
    var cs := CenterLists(images, patchShape, sampling, centers, collab).value;
    assert ps.instructions == BuildInstructions(images, cs, 0, patchShape, mode, ops);
    InstructionOfImage(images, cs, patchShape, mode, ops, k);
  }

  /** An in-range index yields an item as soon as its instruction refers to
      an existing image with at least as many axes as the slice tuple has
      entries: basic slicing never fails for out-of-range bounds, and the
      normalize and augment functions are total. */
  lemma GetItemSucceeds(ps: PatchSet, index: int, ops: FloatOps)
    ensures PyIndex(index, Len(ps)).Some? ==>
      var instr := ps.instructions[PyIndex(index, Len(ps)).value];
      (GetItem(ps, index, ops).Ok? <==>
        instr.idx < |ps.images| && 1 + Min(|instr.center|, |instr.shape|) <= |ps.images[instr.idx].shape|)
  {
  }

  /** Every in-range index of a built PatchSet yields an item, in every
      normalize mode and for every center: slicing never raises, even for a
      center near or past the border. */
  lemma BuiltItemSucceeds(images: seq<Volume<real>>, patchShape: seq<nat>, sampling: Option<Sampling.Sampler>,
                          normalize: string, centers: Option<seq<seq<seq<int>>>>,
                          collab: Sampling.Collaborators, ops: FloatOps, ps: PatchSet, index: int)
    requires Build(images, patchShape, sampling, normalize, centers, collab, ops) == Ok(ps)
    requires -(Len(ps) as int) <= index < Len(ps)
    ensures GetItem(ps, index, ops).Ok?
  {
    var k := PyIndex(index, Len(ps)).value;
    NormalizerPerImage(images, patchShape, sampling, normalize, centers, collab, ops, ps, k);
    assert ps.images == images && |patchShape| == 3 && |images[ps.instructions[k].idx].shape| == 4;
    GetItemSucceeds(ps, index, ops);
  }

  /** With normalization 'none', the item of an instruction whose center is
      valid on every axis of its image is exactly the (C, d0, d1, d2) box of
      that image starting at center - ceil(patch/2) on each spatial axis. */
  lemma ItemIsExactPatch(images: seq<Volume<real>>, patchShape: seq<nat>, sampling: Option<Sampling.Sampler>,
                         centers: Option<seq<seq<seq<int>>>>, collab: Sampling.Collaborators, ops: FloatOps,
                         ps: PatchSet, k: nat, idx: seq<int>)
    requires Build(images, patchShape, sampling, "none", centers, collab, ops) == Ok(ps)
    requires k < Len(ps) && ps.instructions[k].idx < |images|
    requires |ps.instructions[k].center| == 3
    requires forall a :: 0 <= a < 3 ==> CenterInRange(ps.instructions[k].center[a], patchShape[a],
                                                      images[ps.instructions[k].idx].shape[a + 1])
    ensures GetItem(ps, k, ops).Ok?
    ensures var img := images[ps.instructions[k].idx];
      GetItem(ps, k, ops).value.shape == [img.shape[0], patchShape[0], patchShape[1], patchShape[2]]
    ensures var img := images[ps.instructions[k].idx];
      var c := ps.instructions[k].center;
      var v := GetItem(ps, k, ops).value;
      InShape(v.shape, idx) ==>
        v.at(idx) == img.at([idx[0], c[0] - CeilHalf(patchShape[0]) + idx[1],
                             c[1] - CeilHalf(patchShape[1]) + idx[2], c[2] - CeilHalf(patchShape[2]) + idx[3]])
  {
    PlainInstruction(images, patchShape, sampling, centers, collab, ops, ps, k);
    var instr := ps.instructions[k];
    assert instr.shape == patchShape && ps.images[instr.idx] == images[instr.idx];
    PlainItemIsPatch(ps, k, ops, idx);
  }

  /** An instruction of a set built with 'none' carries the identity, no
      augmentation and the rank-3 patch shape, and its image has rank 4. */
  lemma PlainInstruction(images: seq<Volume<real>>, patchShape: seq<nat>, sampling: Option<Sampling.Sampler>,
                         centers: Option<seq<seq<seq<int>>>>, collab: Sampling.Collaborators, ops: FloatOps,
                         ps: PatchSet, k: nat)
    requires Build(images, patchShape, sampling, "none", centers, collab, ops) == Ok(ps)
    requires k < Len(ps)
    ensures ps.images == images && ps.instructions[k].idx < |images|
    ensures ps.instructions[k].normalize == Some(Identity) && ps.instructions[k].augment.None?
    ensures ps.instructions[k].shape == patchShape && |patchShape| == 3
    ensures |images[ps.instructions[k].idx].shape| == 4
  {
    NormalizerPerImage(images, patchShape, sampling, "none", centers, collab, ops, ps, k);
    assert ParseNormalize("none") == Ok(NoNorm);
  }

  /** The item of an instruction with the identity, no augmentation, a rank-3
      patch shape and a center valid in its rank-4 image is that box of the
      image. */
  lemma PlainItemIsPatch(ps: PatchSet, k: nat, ops: FloatOps, idx: seq<int>)
    requires k < Len(ps) && ps.instructions[k].idx < |ps.images|
    requires ps.instructions[k].normalize == Some(Identity) && ps.instructions[k].augment.None?
    requires |ps.images[ps.instructions[k].idx].shape| == 4
    requires |ps.instructions[k].center| == 3 && |ps.instructions[k].shape| == 3
    requires forall a :: 0 <= a < 3 ==> CenterInRange(ps.instructions[k].center[a], ps.instructions[k].shape[a],
                                                      ps.images[ps.instructions[k].idx].shape[a + 1])
    ensures GetItem(ps, k, ops).Ok?
    ensures var img := ps.images[ps.instructions[k].idx];
      var d := ps.instructions[k].shape;
      GetItem(ps, k, ops).value.shape == [img.shape[0], d[0], d[1], d[2]]
    ensures var img := ps.images[ps.instructions[k].idx];
      var c := ps.instructions[k].center;
      var d := ps.instructions[k].shape;
      var v := GetItem(ps, k, ops).value;
      InShape(v.shape, idx) ==>
        v.at(idx) == img.at([idx[0], c[0] - CeilHalf(d[0]) + idx[1],
                             c[1] - CeilHalf(d[1]) + idx[2], c[2] - CeilHalf(d[2]) + idx[3]])
  {
    var instr := ps.instructions[k];
    PlainItem(ps, k, ops);
    PatchExtract(ps.images[instr.idx], instr.center, instr.shape, idx);
  }

  /** An item whose instruction carries the identity and no augmentation is
      the bare patch slice of its image. */
  lemma PlainItem(ps: PatchSet, k: nat, ops: FloatOps)
    requires k < Len(ps) && ps.instructions[k].idx < |ps.images|
    requires ps.instructions[k].normalize == Some(Identity) && ps.instructions[k].augment.None?
    ensures GetItem(ps, k, ops) ==
      Extract(ps.images[ps.instructions[k].idx], PatchSlice(ps.instructions[k].center, ps.instructions[k].shape))
  {
  }
}

=== FILE: sampling.dfy ===
/** The sampling strategies handed to a PatchSet (`UniformSampling` and
    `BalancedSampling`, subclasses of `PatchSampling`), as one tagged variant
    dispatched by a single function. */
module Sampling {
  import opened Base
  import opened Volumes
  import opened PatchGeometry
  import SeqUtil
  import UniformCenters
  import BalancedCenters

  datatype Sampler =
    | Uniform(step: seq<int>, maxPatches: Option<nat>, masks: Option<seq<Volume<real>>>)
    | Balanced(labels: seq<Volume<int>>, numPatches: nat, addRandOffset: bool)

  /** What sampling relies on but this model does not define: `resample_list`
      and the seeded random offsets of the balanced strategy. */
  datatype Collaborators = Collaborators(resample: Resampler, offset: BalancedCenters.Offsets)

  /** `img[0]`: the first channel of a (C, X, Y, Z) image. */
  function FirstChannel(img: Volume<real>): (r: Result<Volume<real>>)
    ensures r.Ok? <==> |img.shape| > 0 && img.shape[0] > 0
    ensures r.Ok? ==> r.value.shape == img.shape[1..]
    ensures r.Ok? ==> forall c :: r.value.at(c) == img.at([0] + c)
  {
    if |img.shape| == 0 || img.shape[0] == 0 then Err(IndexError)
    else Ok(Volume(img.shape[1..], (c: seq<int>) => img.at([0] + c)))
  }

  /** `int(np.ceil(num_patches / len(images)))`: the per-image quota. With k
      images, k quotas cover the request and overshoot it by less than k. */
  function Quota(numPatches: nat, k: nat): (r: Result<nat>)
    ensures r.Ok? <==> k > 0
    ensures r.Err? ==> r.error == ZeroDivision
    ensures r.Ok? ==> k * r.value >= numPatches && k * r.value < numPatches + k
  {
    if k == 0 then Err(ZeroDivision) else Ok(CeilDiv(numPatches, k))
  }

  /** How many images the uniform strategy visits: `zip(images, masks)` stops
      at the shorter list. */
  function UniformCount(images: seq<Volume<real>>, masks: Option<seq<Volume<real>>>): nat
  {
    if masks.Some? then Min(|images|, |masks.value|) else |images|
  }

  /** The quota handed to every image: `None` without a count, else
      `ceil(npatches / len(images))`. */
  function UniformQuota(numPatches: Option<nat>, k: nat): Option<nat>
    requires numPatches.Some? ==> k > 0
  {
    if numPatches.Some? then Some(Quota(numPatches.value, k).value) else None
  }

  /** `sample_centers_uniform(img[0], patch_shape, step, quota, mask)` for
      image i, with its own mask when masks are given. */
  function UniformOfImage(step: seq<int>, quota: Option<nat>, masks: Option<seq<Volume<real>>>,
                          images: seq<Volume<real>>, patchShape: seq<nat>, resample: Resampler,
                          i: nat): (r: Result<seq<seq<int>>>)
    requires i < UniformCount(images, masks)
    ensures r.Ok? <==> (FirstChannel(images[i]).Ok? &&
      UniformCenters.SampleCentersUniform(FirstChannel(images[i]).value.shape, patchShape, step, quota,
        if masks.Some? then Some(masks.value[i]) else None, resample).Ok?)
    ensures r.Ok? ==> UniformCenters.SampleCentersUniform(FirstChannel(images[i]).value.shape, patchShape,
      step, quota, if masks.Some? then Some(masks.value[i]) else None, resample) == r
  {
    var ch :- FirstChannel(images[i]);
    UniformCenters.SampleCentersUniform(ch.shape, patchShape, step, quota,
      if masks.Some? then Some(masks.value[i]) else None, resample)
  }

  /** `UniformSampling.sample_centers(images, patch_shape)`: list i is the
      uniform sample of image i's first channel (and mask i), with the
      per-image quota; a count with no images divides by zero. */
  function SampleUniform(step: seq<int>, numPatches: Option<nat>, masks: Option<seq<Volume<real>>>,
                         images: seq<Volume<real>>, patchShape: seq<nat>, resample: Resampler): (r: Result<seq<seq<seq<int>>>>)
    ensures r.Ok? ==> |r.value| == UniformCount(images, masks)
    ensures numPatches.Some? && |images| == 0 ==> r == Err(ZeroDivision)
    ensures r.Ok? ==> forall i :: 0 <= i < |r.value| ==>
      UniformOfImage(step, UniformQuota(numPatches, |images|), masks, images, patchShape, resample, i) == Ok(r.value[i])
    ensures r.Ok? <==> ((numPatches.Some? ==> |images| > 0) &&
      forall i :: 0 <= i < UniformCount(images, masks) ==>
        UniformOfImage(step, UniformQuota(numPatches, |images|), masks, images, patchShape, resample, i).Ok?)
  {
    if numPatches.Some? && |images| == 0 then Err(ZeroDivision)
    else
      var quota := UniformQuota(numPatches, |images|);
      var n := UniformCount(images, masks);
      var rs := seq(n, i requires 0 <= i < n => UniformOfImage(step, quota, masks, images, patchShape, resample, i));
      var r := Collect(rs);
      assert r.Ok? ==> forall i :: 0 <= i < n ==> rs[i] == Ok(r.value[i]);
      r
  }

  /** The shape assertion of the balanced strategy: `img[0].shape == lbl.shape`
      for every pair, stopping at the first mismatch (an image without a first
      channel raises IndexError when it is reached). */
  function ShapesMatch(images: seq<Volume<real>>, labels: seq<Volume<int>>): (r: Result<bool>)
    requires |images| == |labels|
    ensures r == Ok(true) <==> forall i :: 0 <= i < |images| ==>
      FirstChannel(images[i]).Ok? && FirstChannel(images[i]).value.shape == labels[i].shape
  {
    if |images| == 0 then Ok(true)
    else
      var ch :- FirstChannel(images[0]);
      if ch.shape != labels[0].shape then Ok(false)
      else
        var rest := ShapesMatch(images[1..], labels[1..]);
        assert forall i :: 1 <= i < |images| ==> images[i] == images[1..][i - 1] && labels[i] == labels[1..][i - 1];
        rest
  }

  /** `BalancedSampling.sample_centers(images, patch_shape)`; `parallel_load`
      is taken to return the per-label results in order. The two asserts
      raise AssertionError, no images at all divide by zero, and otherwise
      the first label image whose sample fails gives the error. */
  function SampleBalanced(labels: seq<Volume<int>>, numPatches: nat, addRandOffset: bool,
                          images: seq<Volume<real>>, patchShape: seq<nat>, collab: Collaborators): (r: Result<seq<seq<seq<int>>>>)
    ensures |images| != |labels| ==> r == Err(AssertionFailed)
    ensures |images| == |labels| && ShapesMatch(images, labels) == Ok(false) ==> r == Err(AssertionFailed)
    ensures |images| == |labels| && ShapesMatch(images, labels).Err? ==> r == Err(ShapesMatch(images, labels).error)
    ensures |images| == |labels| == 0 ==> r == Err(ZeroDivision)
    ensures r.Ok? ==> |images| == |labels| == |r.value| > 0
    ensures r.Ok? ==> forall i :: 0 <= i < |images| ==>
      FirstChannel(images[i]).Ok? && FirstChannel(images[i]).value.shape == labels[i].shape
    ensures r.Ok? ==> forall i :: 0 <= i < |labels| ==>
      BalancedCenters.SampleCentersBalanced(labels[i], patchShape, Quota(numPatches, |images|).value,
        addRandOffset, None, collab.resample, collab.offset) == Ok(r.value[i])
  {
    if |images| != |labels| then Err(AssertionFailed)
    else
      var same :- ShapesMatch(images, labels);
      if !same then Err(AssertionFailed)
      else
        var quota :- Quota(numPatches, |images|);
        var rs := seq(|labels|, i requires 0 <= i < |labels| =>
          BalancedCenters.SampleCentersBalanced(labels[i], patchShape, quota, addRandOffset, None,
            collab.resample, collab.offset));
        Collect(rs)
  }

  /** When the balanced strategy succeeds: the counts agree, there is at
      least one image, every image's first channel has its label image's
      shape, and every per-label sample succeeds. Past the asserts, a failure
      is the error of some label image's sample, the first failing one. */
  lemma SampleBalancedOutcome(labels: seq<Volume<int>>, numPatches: nat, addRandOffset: bool,
                              images: seq<Volume<real>>, patchShape: seq<nat>, collab: Collaborators)
    ensures var r := SampleBalanced(labels, numPatches, addRandOffset, images, patchShape, collab);
      r.Ok? <==> (|images| == |labels| > 0 && ShapesMatch(images, labels) == Ok(true) &&
        forall i :: 0 <= i < |labels| ==>
          BalancedCenters.SampleCentersBalanced(labels[i], patchShape, Quota(numPatches, |images|).value,
            addRandOffset, None, collab.resample, collab.offset).Ok?)
    ensures var r := SampleBalanced(labels, numPatches, addRandOffset, images, patchShape, collab);
      r.Err? && |images| == |labels| > 0 && ShapesMatch(images, labels) == Ok(true) ==>
        exists i :: 0 <= i < |labels| &&
          BalancedCenters.SampleCentersBalanced(labels[i], patchShape, Quota(numPatches, |images|).value,
            addRandOffset, None, collab.resample, collab.offset) == Err(r.error) &&
          forall j :: 0 <= j < i ==>
            BalancedCenters.SampleCentersBalanced(labels[j], patchShape, Quota(numPatches, |images|).value,
              addRandOffset, None, collab.resample, collab.offset).Ok?
  {
    var r := SampleBalanced(labels, numPatches, addRandOffset, images, patchShape, collab);
    if |images| == |labels| > 0 && ShapesMatch(images, labels) == Ok(true) {
      var quota := Quota(numPatches, |images|).value;
      var rs := seq(|labels|, i requires 0 <= i < |labels| =>
        BalancedCenters.SampleCentersBalanced(labels[i], patchShape, quota, addRandOffset, None,
          collab.resample, collab.offset));
      assert r == Collect(rs);
      if r.Err? {
        var i :| 0 <= i < |rs| && rs[i] == Err(r.error) && forall j :: 0 <= j < i ==> rs[j].Ok?;
        assert rs[i] == BalancedCenters.SampleCentersBalanced(labels[i], patchShape, quota, addRandOffset, None,
          collab.resample, collab.offset);
        assert forall j :: 0 <= j < i ==>
          BalancedCenters.SampleCentersBalanced(labels[j], patchShape, quota, addRandOffset, None,
            collab.resample, collab.offset).Ok? by {
          forall j | 0 <= j < i
            ensures BalancedCenters.SampleCentersBalanced(labels[j], patchShape, quota, addRandOffset, None,
              collab.resample, collab.offset).Ok?
          {
            assert rs[j].Ok?;
          }
        }
      }
    }
  }

  /** `sampling.sample_centers(images, patch_shape)`. */
  function SampleCenters(s: Sampler, images: seq<Volume<real>>, patchShape: seq<nat>, collab: Collaborators): (r: Result<seq<seq<seq<int>>>>)
    ensures r.Ok? ==> |r.value| <= |images|
    ensures r.Ok? && (s.Balanced? || s.masks.None?) ==> |r.value| == |images|
  {
    match s
    case Uniform(step, n, masks) => SampleUniform(step, n, masks, images, patchShape, collab.resample)
    case Balanced(labels, n, jitter) => SampleBalanced(labels, n, jitter, images, patchShape, collab)
  }

  /** Every balanced center of image i is a valid center of that image's
      spatial extent on each axis where the patch fits, whatever the offsets:
      the patch cut around it lies inside the image. */
  lemma BalancedCentersFitImages(labels: seq<Volume<int>>, numPatches: nat, addRandOffset: bool,
                                 images: seq<Volume<real>>, patchShape: seq<nat>, collab: Collaborators,
                                 i: nat, c: seq<int>)
    requires SampleBalanced(labels, numPatches, addRandOffset, images, patchShape, collab).Ok?
    requires i < |images|
    requires c in SampleBalanced(labels, numPatches, addRandOffset, images, patchShape, collab).value[i]
    ensures |images[i].shape| > 0 && |c| == |patchShape| == |images[i].shape| - 1
    ensures forall a :: 0 <= a < |c| && patchShape[a] <= images[i].shape[a + 1] ==>
      CenterInRange(c[a], patchShape[a], images[i].shape[a + 1])
  {
    var r := SampleBalanced(labels, numPatches, addRandOffset, images, patchShape, collab).value;
    var quota := Quota(numPatches, |images|).value;
    BalancedCenters.BalancedCentersInRange(labels[i], patchShape, quota, addRandOffset, None,
      collab.resample, collab.offset, c);
    assert labels[i].shape == images[i].shape[1..];
  }

  /** Without a target count and with positive steps, every uniform center of
      image i gives a patch inside that image. */
  lemma UniformCentersFitImages(step: seq<int>, masks: Option<seq<Volume<real>>>,
                                images: seq<Volume<real>>, patchShape: seq<nat>, resample: Resampler,
                                i: nat, c: seq<int>)
    requires UniformCenters.PositiveSteps(step)
    requires SampleUniform(step, None, masks, images, patchShape, resample).Ok?
    requires i < UniformCount(images, masks)
    requires c in SampleUniform(step, None, masks, images, patchShape, resample).value[i]
    ensures |images[i].shape| > 0 && |c| == |patchShape| == |images[i].shape| - 1
    ensures forall a :: 0 <= a < |c| ==> CenterInRange(c[a], patchShape[a], images[i].shape[a + 1])
  {
    var ch := FirstChannel(images[i]).value;
    var mask := if masks.Some? then Some(masks.value[i]) else None;
    var res := UniformCenters.SampleCentersUniform(ch.shape, patchShape, step, None, mask, resample);
    assert res.Ok?;
    var grid := UniformCenters.CenterGrid(ch.shape, patchShape, step);
    assert c in grid by {
      if mask.Some? {
        SeqUtil.SubseqMember(res.value, grid, c);
      }
    }
    UniformCenters.GridCentersInBounds(ch.shape, patchShape, step, c);
  }
}

=== FILE: search.dfy ===
/** The threshold and lesion-size grid search: for every (threshold, minimum
    lesion size) pair, binarize each sample's probability volume, score it
    against the sample's ground truth, and aggregate the scores per pair. The
    labeller, the scoring function and the aggregation are parameters. */
module ThreshSizeSearch {
  import opened Base
  import opened SeqUtil
  import opened Binarization

  /** An evaluation sample: its identifier and its ground-truth volume. */
  datatype Sample<G> = Sample(id: string, truth: G)

  /** The name `th={thresh}_ls={size}` of one grid cell, kept structured. */
  datatype CellName = CellName(th: real, ls: real)

  /** `(metrics_list, metrics_names)`. */
  datatype SearchOutput<A> = SearchOutput(metrics: seq<A>, names: seq<CellName>)

  /** `itertools.product(thresholds, lesion_sizes)` as cell names: thresholds
      in the outer position, sizes in the inner one. */
  function Pairs(ts: seq<real>, ss: seq<real>): (r: seq<CellName>)
    ensures |r| == |ts| * |ss|
    ensures forall k :: 0 <= k < |r| ==> r[k].th in ts && r[k].ls in ss
  {
    if |ts| == 0 then []
    else Row(ts[0], ss) + Pairs(ts[1..], ss)
  }

  /** The cells of one threshold, in size order. */
  function Row(t: real, ss: seq<real>): (r: seq<CellName>)
    ensures |r| == |ss|
    ensures forall j :: 0 <= j < |ss| ==> r[j] == CellName(t, ss[j])
  {
    seq(|ss|, j requires 0 <= j < |ss| => CellName(t, ss[j]))
  }

  /** Row i of an m-column grid starts m cells after row i - 1 and ends
      before row count * m. */
  lemma RowOffset(i: nat, j: nat, rows: nat, m: nat)
    requires 0 < i < rows && j < m
    ensures i * m + j == m + ((i - 1) * m + j)
    ensures (i - 1) * m + j < (rows - 1) * m
    ensures rows * m == m + (rows - 1) * m
  {
  }

  /** Cell (i, j) sits at position i * |ss| + j. */
  lemma {:induction false} PairsIndex(ts: seq<real>, ss: seq<real>, i: nat, j: nat)
    requires i < |ts| && j < |ss|
    ensures i * |ss| + j < |ts| * |ss|
    ensures Pairs(ts, ss)[i * |ss| + j] == CellName(ts[i], ss[j])
  {
    if i > 0 {
      PairsIndex(ts[1..], ss, i - 1, j);
      RowOffset(i, j, |ts|, |ss|);
    }
  }

  /** A cell occurs once per pair of equal threshold and equal size entries. */
  lemma {:induction false} PairsCount(ts: seq<real>, ss: seq<real>, c: CellName)
    ensures Count(Pairs(ts, ss), c) == Count(ts, c.th) * Count(ss, c.ls)
  {
    if |ts| > 0 {
      CountConcat(Row(ts[0], ss), Pairs(ts[1..], ss), c);
      PairsCount(ts[1..], ss, c);
      RowCount(ts[0], ss, c);
      MulSplit(if ts[0] == c.th then 1 else 0, Count(ts[1..], c.th), Count(ss, c.ls));
    }
  }

  lemma MulSplit(a: nat, b: nat, m: nat)
    requires a <= 1
    ensures (a + b) * m == (if a == 1 then m else 0) + b * m
  {
  }

  lemma {:induction false} RowCount(t: real, ss: seq<real>, c: CellName)
    ensures Count(Row(t, ss), c) == (if t == c.th then Count(ss, c.ls) else 0)
  {
    if |ss| > 0 {
      RowCount(t, ss[1..], c);
      assert Row(t, ss)[1..] == Row(t, ss[1..]);
    }
  }

  /** A reconstruction: the binary volume computed from a probability
      volume, a threshold and a minimum lesion size. */
  type Recon = (ProbVolume, real, real) -> seq<nat>

  /** The reconstruction `thresh_size_search` performs inline: strict
      threshold, connected components, removal of small components. */
  function EfficientCell(labeller: Labeller): (r: Recon)
    ensures forall p, t, s :: r(p, t, s) == ThreshSize(p, t, s, labeller)
  {
    (p: ProbVolume, t: real, s: real) => ThreshSize(p, t, s, labeller)
  }

  /** The score one sample gets in one cell. */
  function CellScore<G, M>(smp: Sample<G>, probs: ProbVolume, c: CellName, cell: Recon,
                           score: (G, seq<nat>) -> M): M
  {
    score(smp.truth, cell(probs, c.th, c.ls))
  }

  /** The list a cell accumulates over the samples: every sample present in
      the result set contributes its score `mult` times, in sample order, and
      the others nothing. */
  function Records<G, M>(samples: seq<Sample<G>>, rs: map<string, ProbVolume>, c: CellName, mult: nat,
                         cell: Recon, score: (G, seq<nat>) -> M): (r: seq<M>)
  {
    if |samples| == 0 then []
    else
      var n := |samples| - 1;
      Records(samples[..n], rs, c, mult, cell, score) +
        (if samples[n].id in rs then Repeat(CellScore(samples[n], rs[samples[n].id], c, cell, score), mult) else [])
  }

  /** What `thresh_size_search` returns: the cells in product order, each
      aggregating its accumulated list. Equal names share one list, so a cell
      collects once per occurrence of its name in the product. */
  function SearchResult<G, M, A>(samples: seq<Sample<G>>, rs: map<string, ProbVolume>, ts: seq<real>, ss: seq<real>,
                                 cell: Recon, score: (G, seq<nat>) -> M, aggregate: seq<M> -> A): (r: SearchOutput<A>)
  {
    var cells := Pairs(ts, ss);
    SearchOutput(seq(|cells|, k requires 0 <= k < |cells| =>
      aggregate(Records(samples, rs, cells[k], Count(cells, cells[k]), cell, score))), cells)
  }

  /** Cell (i, j) of the search output: the name of threshold i and size j,
      and the aggregate of the scores of every present sample, each repeated
      once per pair of equal threshold and size entries. */
  lemma SearchResultCell<G, M, A>(samples: seq<Sample<G>>, rs: map<string, ProbVolume>, ts: seq<real>, ss: seq<real>,
                                  cell: Recon, score: (G, seq<nat>) -> M, aggregate: seq<M> -> A, i: nat, j: nat)
    requires i < |ts| && j < |ss|
    ensures var r := SearchResult(samples, rs, ts, ss, cell, score, aggregate);
      |r.names| == |r.metrics| == |ts| * |ss| && i * |ss| + j < |r.names| &&
      r.names[i * |ss| + j] == CellName(ts[i], ss[j]) &&
      r.metrics[i * |ss| + j] ==
        aggregate(Records(samples, rs, CellName(ts[i], ss[j]), Count(ts, ts[i]) * Count(ss, ss[j]), cell, score))
  {
    PairsIndex(ts, ss, i, j);
    PairsCount(ts, ss, CellName(ts[i], ss[j]));
  }

  /** The inner loops of `thresh_size_search` for one present sample: walk
      the cells in product order and append the sample's score to each
      cell's list, so a cell whose name occurs several times gets the score
      once per occurrence. */
  method AppendSample<G, M>(lists: map<CellName, seq<M>>, cells: seq<CellName>, smp: Sample<G>, probs: ProbVolume,
                            cell: Recon, score: (G, seq<nat>) -> M)
    returns (out: map<CellName, seq<M>>)
    requires forall c :: c in cells ==> c in lists
    ensures forall c :: c in cells ==>
      c in out && out[c] == lists[c] + Repeat(CellScore(smp, probs, c, cell, score), Count(cells, c))
  {
    out := lists;
    for k := 0 to |cells|
      invariant forall c :: c in cells ==>
        c in out && out[c] == lists[c] + Repeat(CellScore(smp, probs, c, cell, score), Count(cells[..k], c))
    {
      var c := cells[k];
      assert cells[..k + 1] == cells[..k] + [c];
      forall c' ensures Count(cells[..k + 1], c') == Count(cells[..k], c') + (if c == c' then 1 else 0) {
        CountConcat(cells[..k], [c], c');
      }
      out := out[c := out[c] + [CellScore(smp, probs, c, cell, score)]];
    }
    assert cells[..|cells|] == cells;
  }

  /** The sample loop of `thresh_size_search`: starting from an empty list
      per cell name, each cell ends up holding exactly its records. */
  method Accumulate<G, M>(samples: seq<Sample<G>>, rs: map<string, ProbVolume>, cells: seq<CellName>,
                          cell: Recon, score: (G, seq<nat>) -> M)
    returns (lists: map<CellName, seq<M>>)
    ensures forall c :: c in cells ==>
      c in lists && lists[c] == Records(samples, rs, c, Count(cells, c), cell, score)
  {
    lists := map c | c in cells :: [];
    for n := 0 to |samples|
      invariant forall c :: c in cells ==>
        c in lists && lists[c] == Records(samples[..n], rs, c, Count(cells, c), cell, score)
    {
      assert samples[..n + 1][..n] == samples[..n];
      if samples[n].id in rs {
        lists := AppendSample(lists, cells, samples[n], rs[samples[n].id], cell, score);
      }
    }
    assert samples[..|samples|] == samples;
  }

  /** `thresh_size_search`: a dictionary of lists, one per cell name, filled
      sample by sample (skipping samples missing from the result set), then
      read out in product order. */
  method Search<G, M, A>(samples: seq<Sample<G>>, rs: map<string, ProbVolume>, ts: seq<real>, ss: seq<real>,
                         labeller: Labeller, score: (G, seq<nat>) -> M, aggregate: seq<M> -> A)
    returns (out: SearchOutput<A>)
    ensures out == SearchResult(samples, rs, ts, ss, EfficientCell(labeller), score, aggregate)
  {
    var cell := EfficientCell(labeller);
    var cells := Pairs(ts, ss);
    var lists := Accumulate(samples, rs, cells, cell, score);
    var metrics: seq<A> := [];
    for k := 0 to |cells|
      invariant |metrics| == k
      invariant forall k' :: 0 <= k' < k ==> metrics[k'] == aggregate(lists[cells[k']])
    {
      metrics := metrics + [aggregate(lists[cells[k]])];
    }
    out := SearchOutput(metrics, cells);
    assert out.metrics == SearchResult(samples, rs, ts, ss, cell, score, aggregate).metrics;
  }

  /** `thresh_size_search_inefficient`: look up every sample's probabilities
      first (a missing one raises KeyError), then for each cell in product
      order binarize with the given binarizer and aggregate the scores. */
  function SearchInefficient<G, M, A>(samples: seq<Sample<G>>, rs: map<string, ProbVolume>, ts: seq<real>, ss: seq<real>,
                                      binarize: (real, real, ProbVolume) -> seq<nat>,
                                      score: (G, seq<nat>) -> M, aggregate: seq<M> -> A): (r: Result<SearchOutput<A>>)
    ensures r.Err? <==> exists n :: 0 <= n < |samples| && samples[n].id !in rs
    ensures r.Err? ==> r.error == KeyError
    ensures r.Ok? ==> r.value.names == Pairs(ts, ss) && |r.value.metrics| == |ts| * |ss|
    ensures r.Ok? ==> forall k :: 0 <= k < |r.value.metrics| ==>
      r.value.metrics[k] == aggregate(seq(|samples|, n requires 0 <= n < |samples| =>
        score(samples[n].truth, binarize(r.value.names[k].th, r.value.names[k].ls, rs[samples[n].id]))))
  {
    if exists n :: 0 <= n < |samples| && samples[n].id !in rs then Err(KeyError)
    else
      var cells := Pairs(ts, ss);
      Ok(SearchOutput(seq(|cells|, k requires 0 <= k < |cells| =>
        aggregate(seq(|samples|, n requires 0 <= n < |samples| =>
          score(samples[n].truth, binarize(cells[k].th, cells[k].ls, rs[samples[n].id]))))), cells))
  }

  /** One score per sample, in sample order; every sample must be present. */
  function PerSample<G, M>(samples: seq<Sample<G>>, rs: map<string, ProbVolume>, c: CellName,
                           cell: Recon, score: (G, seq<nat>) -> M): (r: seq<M>)
    requires forall n :: 0 <= n < |samples| ==> samples[n].id in rs
    ensures |r| == |samples|
    ensures forall n :: 0 <= n < |samples| ==> r[n] == CellScore(samples[n], rs[samples[n].id], c, cell, score)
  {
    if |samples| == 0 then []
    else
      var n := |samples| - 1;
      var pre := samples[..n];
      assert forall i :: 0 <= i < n ==> pre[i] == samples[i];
      PerSample(pre, rs, c, cell, score) + [CellScore(samples[n], rs[samples[n].id], c, cell, score)]
  }

  /** With every sample present and multiplicity one, a cell's list is the
      per-sample score list. */
  lemma {:induction false} RecordsOnce<G, M>(samples: seq<Sample<G>>, rs: map<string, ProbVolume>, c: CellName,
                                             cell: Recon, score: (G, seq<nat>) -> M)
    requires forall n :: 0 <= n < |samples| ==> samples[n].id in rs
    ensures Records(samples, rs, c, 1, cell, score) == PerSample(samples, rs, c, cell, score)
  {
    if |samples| > 0 {
      var n := |samples| - 1;
      RecordsOnce(samples[..n], rs, c, cell, score);
      var last := CellScore(samples[n], rs[samples[n].id], c, cell, score);
      assert Repeat(last, 1) == [last];
    }
  }

  /** The records of two runs of samples are those of each run, in order. */
  lemma {:induction false} RecordsConcat<G, M>(a: seq<Sample<G>>, b: seq<Sample<G>>, rs: map<string, ProbVolume>,
                                               c: CellName, mult: nat, cell: Recon, score: (G, seq<nat>) -> M)
    ensures Records(a + b, rs, c, mult, cell, score) ==
      Records(a, rs, c, mult, cell, score) + Records(b, rs, c, mult, cell, score)
  {
    if |b| == 0 {
      assert a + b == a;
    } else {
      var n := |b| - 1;
      RecordsConcat(a, b[..n], rs, c, mult, cell, score);
      var ab := a + b;
      assert ab[|ab| - 1] == b[n];
      assert ab[..|ab| - 1] == a + b[..n];
    }
  }

  /** A sample missing from the result set adds nothing to any cell: the
      lists are those of the samples without it. */
  lemma SkipMissing<G, M>(a: seq<Sample<G>>, x: Sample<G>, b: seq<Sample<G>>, rs: map<string, ProbVolume>,
                          c: CellName, mult: nat, cell: Recon, score: (G, seq<nat>) -> M)
    requires x.id !in rs
    ensures Records(a + [x] + b, rs, c, mult, cell, score) == Records(a + b, rs, c, mult, cell, score)
  {
    RecordsConcat(a + [x], b, rs, c, mult, cell, score);
    RecordsConcat(a, [x], rs, c, mult, cell, score);
    RecordsConcat(a, b, rs, c, mult, cell, score);
    assert [x][..0] == [];
  }

  /** One cell seen by both searches when every sample is present and the
      binarizer agrees with the efficient search's reconstruction. */
  lemma CellAgrees<G, M>(samples: seq<Sample<G>>, rs: map<string, ProbVolume>, c: CellName,
                         cell: Recon, binarize: (real, real, ProbVolume) -> seq<nat>,
                         score: (G, seq<nat>) -> M)
    requires forall n :: 0 <= n < |samples| ==> samples[n].id in rs
    requires forall p :: binarize(c.th, c.ls, p) == cell(p, c.th, c.ls)
    ensures Records(samples, rs, c, 1, cell, score) ==
      seq(|samples|, n requires 0 <= n < |samples| => score(samples[n].truth, binarize(c.th, c.ls, rs[samples[n].id])))
  {
    RecordsOnce(samples, rs, c, cell, score);
    var lhs := PerSample(samples, rs, c, cell, score);
    var rhs := seq(|samples|, n requires 0 <= n < |samples| => score(samples[n].truth, binarize(c.th, c.ls, rs[samples[n].id])));
    assert lhs == rhs;
  }

  lemma MetricAgrees<G, M, A>(samples: seq<Sample<G>>, rs: map<string, ProbVolume>, ts: seq<real>, ss: seq<real>,
                              cell: Recon, binarize: (real, real, ProbVolume) -> seq<nat>,
                              score: (G, seq<nat>) -> M, aggregate: seq<M> -> A, k: nat)
    requires forall n :: 0 <= n < |samples| ==> samples[n].id in rs
    requires Distinct(ts) && Distinct(ss)
    requires forall t, s, p :: binarize(t, s, p) == cell(p, t, s)
    requires k < |ts| * |ss|
    ensures SearchInefficient(samples, rs, ts, ss, binarize, score, aggregate).Ok?
    ensures SearchInefficient(samples, rs, ts, ss, binarize, score, aggregate).value.metrics[k] ==
      SearchResult(samples, rs, ts, ss, cell, score, aggregate).metrics[k]
  {
    var cells := Pairs(ts, ss);
    var c := cells[k];
    CountDistinct(ts, c.th);
    CountDistinct(ss, c.ls);
    PairsCount(ts, ss, c);
    CellAgrees(samples, rs, c, cell, binarize, score);
  }

  /** When every sample is present, the thresholds and the sizes are
      distinct, and the binarizer thresholds strictly and removes components
      below the minimum size as the efficient search does, both searches
      return the same metrics under the same names. */
  lemma SearchesAgree<G, M, A>(samples: seq<Sample<G>>, rs: map<string, ProbVolume>, ts: seq<real>, ss: seq<real>,
                               labeller: Labeller, binarize: (real, real, ProbVolume) -> seq<nat>,
                               score: (G, seq<nat>) -> M, aggregate: seq<M> -> A)
    requires forall n :: 0 <= n < |samples| ==> samples[n].id in rs
    requires Distinct(ts) && Distinct(ss)
    requires forall t, s, p :: binarize(t, s, p) == ThreshSize(p, t, s, labeller)
    ensures SearchInefficient(samples, rs, ts, ss, binarize, score, aggregate) ==
      Ok(SearchResult(samples, rs, ts, ss, EfficientCell(labeller), score, aggregate))
  {
    var cell := EfficientCell(labeller);
    var r := SearchInefficient(samples, rs, ts, ss, binarize, score, aggregate).value;
    var e := SearchResult(samples, rs, ts, ss, cell, score, aggregate);
    forall k | 0 <= k < |e.metrics| ensures r.metrics[k] == e.metrics[k] {
      MetricAgrees(samples, rs, ts, ss, cell, binarize, score, aggregate, k);
    }
    assert r.metrics == e.metrics;
  }

  /** A repeated threshold makes its cells collect every sample's score
      twice in the efficient search, while the inefficient search aggregates
      it once per cell. */
  lemma DuplicateThresholdDoubles<G, M, A>(smp: Sample<G>, probs: ProbVolume, cell: Recon,
                                           binarize: (real, real, ProbVolume) -> seq<nat>,
                                           score: (G, seq<nat>) -> M, aggregate: seq<M> -> A)
    ensures var rs := map[smp.id := probs];
      var v := CellScore(smp, probs, CellName(0.5, 1.0), cell, score);
      SearchResult([smp], rs, [0.5, 0.5], [1.0], cell, score, aggregate).metrics ==
        [aggregate([v, v]), aggregate([v, v])]
    ensures var rs := map[smp.id := probs];
      var w := score(smp.truth, binarize(0.5, 1.0, probs));
      SearchInefficient([smp], rs, [0.5, 0.5], [1.0], binarize, score, aggregate) ==
        Ok(SearchOutput([aggregate([w]), aggregate([w])], [CellName(0.5, 1.0), CellName(0.5, 1.0)]))
  {
    var rs := map[smp.id := probs];
    var c := CellName(0.5, 1.0);
    var v := CellScore(smp, probs, c, cell, score);
    var cells := Pairs([0.5, 0.5], [1.0]);
    assert Pairs([0.5], [1.0]) == [c];
    assert cells == [c, c];
    assert Count(cells, c) == 2;
    assert [smp][..0] == [];
    assert Repeat(v, 2) == [v, v];
    assert Records([smp], rs, c, 2, cell, score) == [v, v];
    var w := score(smp.truth, binarize(0.5, 1.0, probs));
    var e := SearchInefficient([smp], rs, [0.5, 0.5], [1.0], binarize, score, aggregate);
    assert e.Ok?;
    assert e.value.names == [c, c];
    forall k | 0 <= k < 2 ensures e.value.metrics[k] == aggregate([w]) {
      assert seq(1, n requires 0 <= n < 1 => score([smp][n].truth, binarize(c.th, c.ls, rs[[smp][n].id]))) == [w];
    }
    assert e.value.metrics == [aggregate([w]), aggregate([w])];
  }
}

=== FILE: seq_util.dfy ===
/** Sequence vocabulary: list comprehensions with a filter, order-preserving
    subsequences, concatenation of a list of lists, occurrence counts. */
module SeqUtil {

  /** `[x for x in s if p(x)]`. */
  function Filter<T>(s: seq<T>, p: T -> bool): (r: seq<T>)
    ensures |r| <= |s|
    ensures forall i :: 0 <= i < |r| ==> r[i] in s && p(r[i])
    ensures forall i :: 0 <= i < |s| && p(s[i]) ==> s[i] in r
  {
    if |s| == 0 then []
    else if p(s[0]) then [s[0]] + Filter(s[1..], p)
    else Filter(s[1..], p)
  }

  /** `a` is obtained from `b` by deleting elements, keeping the order of the rest. */
  predicate Subseq<T(==)>(a: seq<T>, b: seq<T>)
    decreases |b|
  {
    if |a| == 0 then true
    else if |b| == 0 then false
    else (a[0] == b[0] && Subseq(a[1..], b[1..])) || Subseq(a, b[1..])
  }

  lemma {:induction false} FilterIsSubseq<T>(s: seq<T>, p: T -> bool)
    ensures Subseq(Filter(s, p), s)
  {
    if |s| > 0 {
      FilterIsSubseq(s[1..], p);
      if !p(s[0]) {
        SubseqOfTail(Filter(s[1..], p), s);
      }
    }
  }

  lemma {:induction false} SubseqOfTail<T>(a: seq<T>, b: seq<T>)
    requires |b| > 0 && Subseq(a, b[1..])
    ensures Subseq(a, b)
  {
  }

  lemma {:induction false} SubseqMember<T>(a: seq<T>, b: seq<T>, x: T)
    requires Subseq(a, b) && x in a
    ensures x in b
    decreases |b|
  {
    if |b| > 0 {
      if a[0] == b[0] && Subseq(a[1..], b[1..]) {
        if x != a[0] {
          SubseqMember(a[1..], b[1..], x);
        }
      } else {
        SubseqMember(a, b[1..], x);
      }
    }
  }

  /** Total length of a list of lists. */
  function SumLens<T>(ss: seq<seq<T>>): nat
  {
    if |ss| == 0 then 0 else |ss[0]| + SumLens(ss[1..])
  }

  /** `list(itertools.chain(*ss))`: the lists one after another. */
  function Flatten<T>(ss: seq<seq<T>>): (r: seq<T>)
    ensures |r| == SumLens(ss)
  {
    if |ss| == 0 then [] else ss[0] + Flatten(ss[1..])
  }

  lemma {:induction false} SumLensPrefix<T>(ss: seq<seq<T>>, i: nat)
    requires i < |ss|
    ensures SumLens(ss[..i+1]) == SumLens(ss[..i]) + |ss[i]|
    ensures SumLens(ss[..i]) + |ss[i]| <= SumLens(ss)
  {
    if i == 0 {
      assert ss[..1][1..] == [];
      assert SumLens(ss[..1]) == |ss[0]|;
    } else {
      SumLensPrefix(ss[1..], i - 1);
      assert ss[1..][..i] == ss[..i+1][1..];
      assert ss[1..][..i-1] == ss[..i][1..];
    }
  }

  /** Element j of list i sits at position SumLens(ss[..i]) + j of the flattening. */
  lemma {:induction false} FlattenIndex<T>(ss: seq<seq<T>>, i: nat, j: nat)
    requires i < |ss| && j < |ss[i]|
    ensures SumLens(ss[..i]) + j < |Flatten(ss)|
    ensures Flatten(ss)[SumLens(ss[..i]) + j] == ss[i][j]
  {
    SumLensPrefix(ss, i);
    if i > 0 {
      FlattenIndex(ss[1..], i - 1, j);
      assert ss[1..][..i-1] == ss[..i][1..];
      assert SumLens(ss[..i]) == |ss[0]| + SumLens(ss[1..][..i-1]);
    }
  }

  /** The (list, element) pair that position k of the flattening comes from. */
  function Locate<T>(ss: seq<seq<T>>, k: nat): (p: (nat, nat))
    requires k < SumLens(ss)
    ensures p.0 < |ss| && p.1 < |ss[p.0]|
    ensures k == SumLens(ss[..p.0]) + p.1
  {
    if k < |ss[0]| then
      assert ss[..0] == [];
      (0, k)
    else
      var p := Locate(ss[1..], k - |ss[0]|);
      assert ss[1..][..p.0] == ss[..p.0+1][1..];
      (p.0 + 1, p.1)
  }

  /** Every element of the flattening comes from one of the lists. */
  lemma {:induction false} InFlatten<T>(ss: seq<seq<T>>, x: T)
    requires x in Flatten(ss)
    ensures exists i :: 0 <= i < |ss| && x in ss[i]
  {
    if x !in ss[0] {
      InFlatten(ss[1..], x);
      var i :| 0 <= i < |ss[1..]| && x in ss[1..][i];
      assert x in ss[i + 1];
    }
  }

  /** Number of occurrences of x in s. */
  function Count<T(==)>(s: seq<T>, x: T): nat
  {
    if |s| == 0 then 0 else (if s[0] == x then 1 else 0) + Count(s[1..], x)
  }

  /** Occurrences add up over a concatenation. */
  lemma {:induction false} CountConcat<T>(a: seq<T>, b: seq<T>, x: T)
    ensures Count(a + b, x) == Count(a, x) + Count(b, x)
  {
    if |a| > 0 {
      assert (a + b)[1..] == a[1..] + b;
      CountConcat(a[1..], b, x);
    } else {
      assert a + b == b;
    }
  }

  /** `[x] * n`. */
  function Repeat<T>(x: T, n: nat): (r: seq<T>)
    ensures |r| == n && forall i :: 0 <= i < n ==> r[i] == x
  {
    if n == 0 then [] else [x] + Repeat(x, n - 1)
  }

  /** No value occurs twice. */
  predicate Distinct<T(==)>(s: seq<T>)
  {
    forall i, j :: 0 <= i < j < |s| ==> s[i] != s[j]
  }

  lemma {:induction false} CountDistinct<T>(s: seq<T>, x: T)
    requires Distinct(s)
    ensures Count(s, x) == (if x in s then 1 else 0)
  {
    if |s| > 0 {
      assert Distinct(s[1..]);
      CountDistinct(s[1..], x);
      if s[0] == x {
        assert x !in s[1..];
      }
    }
  }
}

=== FILE: uniform_centers.dfy ===
/** `sample_centers_uniform`: a strided grid of patch centers, optionally
    thinned by a foreground mask and resampled to a requested count. */
module UniformCenters {
  import opened Base
  import opened Volumes
  import opened SeqUtil
  import Grid
  import opened PatchGeometry

  /** `range(ceil(d/2), n - floor(d/2), step)`: the candidate centers on one
      axis of extent n for a patch extent d. */
  function AxisCenters(n: nat, d: nat, step: int): seq<int>
    requires step != 0
  {
    Grid.PyRange(CeilHalf(d), n - FloorHalf(d), step)
  }

  predicate RanksAgree(volShape: seq<nat>, patchShape: seq<nat>, step: seq<int>)
  {
    |volShape| == |patchShape| == |step|
  }

  predicate NonzeroSteps(step: seq<int>)
  {
    forall a :: 0 <= a < |step| ==> step[a] != 0
  }

  predicate PositiveSteps(step: seq<int>)
  {
    forall a :: 0 <= a < |step| ==> step[a] > 0
  }

  /** `dim_indexes`: the candidate centers of every axis. */
  function AxisGrid(volShape: seq<nat>, patchShape: seq<nat>, step: seq<int>): (dims: seq<seq<int>>)
    requires RanksAgree(volShape, patchShape, step) && NonzeroSteps(step)
    ensures |dims| == |volShape|
    ensures forall a :: 0 <= a < |dims| ==> dims[a] == AxisCenters(volShape[a], patchShape[a], step[a])
  {
    seq(|volShape|, a requires 0 <= a < |volShape| => AxisCenters(volShape[a], patchShape[a], step[a]))
  }

  /** `list(itertools.product(*dim_indexes))`: the unmasked grid. */
  function CenterGrid(volShape: seq<nat>, patchShape: seq<nat>, step: seq<int>): seq<seq<int>>
    requires RanksAgree(volShape, patchShape, step) && NonzeroSteps(step)
  {
    Grid.Product(AxisGrid(volShape, patchShape, step))
  }

  /** On one axis, x is a candidate center iff it is ceil(d/2) plus a
      multiple of the step and stays strictly below n - floor(d/2). */
  predicate OnAxisGrid(x: int, n: nat, d: nat, step: int)
    requires step != 0
  {
    CeilHalf(d) <= x < n - FloorHalf(d) && (x - CeilHalf(d)) % step == 0
  }

  lemma AxisCentersMembership(n: nat, d: nat, step: int, x: int)
    requires step > 0
    ensures x in AxisCenters(n, d, step) <==> OnAxisGrid(x, n, d, step)
  {
    Grid.PyRangeMembership(CeilHalf(d), n - FloorHalf(d), step, x);
  }

  /** With positive steps the grid holds exactly the centers that are
      ceil(d/2) + k * step and stay strictly below n - floor(d/2) on every axis. */
  lemma CenterGridMembership(volShape: seq<nat>, patchShape: seq<nat>, step: seq<int>, c: seq<int>)
    requires RanksAgree(volShape, patchShape, step) && PositiveSteps(step)
    ensures c in CenterGrid(volShape, patchShape, step) <==>
      |c| == |volShape| &&
      forall a :: 0 <= a < |c| ==>
        CeilHalf(patchShape[a]) <= c[a] < volShape[a] - FloorHalf(patchShape[a]) &&
        (c[a] - CeilHalf(patchShape[a])) % step[a] == 0
  {
    var dims := AxisGrid(volShape, patchShape, step);
    Grid.ProductMembership(dims, c);
    forall a | 0 <= a < |dims| && a < |c|
      ensures c[a] in dims[a] <==> OnAxisGrid(c[a], volShape[a], patchShape[a], step[a])
    {
      AxisCentersMembership(volShape[a], patchShape[a], step[a], c[a]);
    }
  }

  /** With positive steps the grid is in increasing row-major order, without
      repetition, with one center per combination of axis values: it is the
      lexicographic enumeration of the Cartesian product. */
  lemma CenterGridOrder(volShape: seq<nat>, patchShape: seq<nat>, step: seq<int>)
    requires RanksAgree(volShape, patchShape, step) && PositiveSteps(step)
    ensures Grid.LexSorted(CenterGrid(volShape, patchShape, step))
    ensures |CenterGrid(volShape, patchShape, step)| == Grid.GridSize(AxisGrid(volShape, patchShape, step))
  {
    var dims := AxisGrid(volShape, patchShape, step);
    forall a | 0 <= a < |dims| ensures Grid.Increasing(dims[a]) {
      Grid.PyRangeIncreasing(CeilHalf(patchShape[a]), volShape[a] - FloorHalf(patchShape[a]), step[a]);
    }
    Grid.ProductSorted(dims);
    Grid.ProductLength(dims);
  }

  /** Every grid center (positive steps) is valid, so its patch lies inside
      the volume; the grid never uses the last valid center n - floor(d/2). */
  lemma GridCentersInBounds(volShape: seq<nat>, patchShape: seq<nat>, step: seq<int>, c: seq<int>)
    requires RanksAgree(volShape, patchShape, step) && PositiveSteps(step)
    requires c in CenterGrid(volShape, patchShape, step)
    ensures |c| == |volShape|
    ensures forall a :: 0 <= a < |c| ==>
      CenterInRange(c[a], patchShape[a], volShape[a]) &&
      SliceInBounds(AxisSpan(c[a], patchShape[a]), volShape[a]) &&
      c[a] < volShape[a] - FloorHalf(patchShape[a])
  {
    CenterGridMembership(volShape, patchShape, step, c);
  }

  /** With a positive step an axis has no candidate center exactly when the
      patch is at least as large as the axis. A patch exactly as large as the
      axis would fit (its one valid center is ceil(d/2)) but is not sampled. */
  lemma AxisEmptyIffPatchTooLarge(n: nat, d: nat, step: int)
    requires step > 0
    ensures AxisCenters(n, d, step) == [] <==> n <= d
    ensures n == d ==> CenterInRange(CeilHalf(d), d, n)
  {
  }

  /** `mask[c[0], c[1], c[2]] != 0.0`. A center of rank below 3 raises
      IndexError, and so does an index outside [-n, n) on one of the first
      three axes. A mask of rank above 3 yields the sub-array over its
      remaining axes; its truth value is its one element when it holds
      exactly one (every remaining extent is 1) and raises ValueError
      otherwise. */
  function MaskTest(mask: Volume<real>, c: seq<int>): (r: Result<bool>)
    ensures r.Err? ==> r.error == IndexError || r.error == ValueError
    ensures |c| < 3 || |mask.shape| < 3 ==> r == Err(IndexError)
    ensures |c| == 3 && InShape(mask.shape, c) ==> r == Ok(mask.at(c) != 0.0)
    ensures |c| >= 3 && |mask.shape| == 3 ==>
      (r.Ok? <==> forall a :: 0 <= a < 3 ==> -(mask.shape[a] as int) <= c[a] < mask.shape[a])
    ensures |c| >= 3 && |mask.shape| == 3 && r.Ok? ==> r == Ok(mask.at(Wrapped(mask.shape, c[..3])) != 0.0)
    ensures |c| >= 3 && |mask.shape| > 3 && (forall a :: 0 <= a < 3 ==> 0 <= c[a] < mask.shape[a]) ==>
      (r.Ok? <==> forall a :: 3 <= a < |mask.shape| ==> mask.shape[a] == 1)
    ensures |c| >= 3 && |mask.shape| > 3 && r.Ok? && (forall a :: 0 <= a < 3 ==> 0 <= c[a] < mask.shape[a]) ==>
      r == Ok(mask.at(c[..3] + Zeros(|mask.shape| - 3)) != 0.0)
  {
    if |c| < 3 then Err(IndexError)
    else if |mask.shape| > 3 then
      if exists a :: 0 <= a < 3 && PyIndex(c[a], mask.shape[a]).None? then Err(IndexError)
      else if exists a :: 3 <= a < |mask.shape| && mask.shape[a] != 1 then Err(ValueError)
      else
        var idx := c[..3] + Zeros(|mask.shape| - 3);
        assert forall a :: 0 <= a < |idx| ==> -(mask.shape[a] as int) <= idx[a] < mask.shape[a] by {
          forall a | 0 <= a < |idx| ensures -(mask.shape[a] as int) <= idx[a] < mask.shape[a] {
            if a < 3 {
              assert idx[a] == c[a] && PyIndex(c[a], mask.shape[a]).Some?;
            } else {
              assert idx[a] == 0 && mask.shape[a] == 1;
            }
          }
        }
        Ok(Lookup(mask, idx).value != 0.0)
    else
      var v :- Lookup(mask, c[..3]);
      assert |c| == 3 ==> c[..3] == c;
      Ok(v != 0.0)
  }

  /** The index of every remaining axis of a mask of rank above 3. */
  function Zeros(k: nat): (z: seq<int>)
    ensures |z| == k && forall a :: 0 <= a < k ==> z[a] == 0
  {
    seq(k, _ => 0)
  }

  /** A (X, Y, Z, 1) mask is accepted: indexing it at a center leaves a
      one-element array, whose truth value is that element's. A (X, Y, Z, 2)
      mask is refused with ValueError. */
  lemma TrailingSingletonMask(f: seq<int> -> real)
    ensures MaskTest(Volume([2, 2, 2, 1], f), [1, 0, 1]) == Ok(f([1, 0, 1, 0]) != 0.0)
    ensures MaskTest(Volume([2, 2, 2, 2], f), [1, 0, 1]) == Err(ValueError)
  {
    assert [1, 0, 1][..3] + Zeros(1) == [1, 0, 1, 0];
    var wide := Volume([2, 2, 2, 2], f);
    assert forall a :: 0 <= a < 3 ==> PyIndex([1, 0, 1][a], wide.shape[a]).Some?;
    assert wide.shape[3] != 1;
  }

  /** `[c for c in centers if mask[c[0], c[1], c[2]] != 0.0]`: it fails when
      some test fails and otherwise keeps, in order, the centers whose mask
      value is nonzero. */
  function FilterByMask(cs: seq<seq<int>>, mask: Volume<real>): (r: Result<seq<seq<int>>>)
    ensures r.Ok? <==> forall i :: 0 <= i < |cs| ==> MaskTest(mask, cs[i]).Ok?
    ensures r.Err? ==> r.error == IndexError || r.error == ValueError
    ensures r.Ok? ==> Subseq(r.value, cs)
    ensures r.Ok? ==> forall i :: 0 <= i < |cs| ==> (cs[i] in r.value <==> MaskTest(mask, cs[i]).value)
    ensures r.Ok? ==> forall i :: 0 <= i < |r.value| ==> MaskTest(mask, r.value[i]) == Ok(true)
  {
    if |cs| == 0 then Ok([])
    else
      var keep :- MaskTest(mask, cs[0]);
      var rest :- FilterByMask(cs[1..], mask);
      assert forall i :: 1 <= i < |cs| ==> cs[i] == cs[1..][i - 1];
      if keep then
        Ok([cs[0]] + rest)
      else
        assert Subseq(rest, cs) by { SubseqOfTail(rest, cs); }
        assert forall i :: 0 <= i < |cs| && cs[i] == cs[0] ==> !MaskTest(mask, cs[i]).value;
        Ok(rest)
  }

  /** `sample_centers_uniform(vol, patch_shape, extraction_step, max_centers, mask)`;
      only the shape of `vol` is used. */
  function SampleCentersUniform(volShape: seq<nat>, patchShape: seq<nat>, step: seq<int>,
                                maxCenters: Option<nat>, mask: Option<Volume<real>>,
                                resample: Resampler): (r: Result<seq<seq<int>>>)
    ensures r == Err(AssertionFailed) <==>
      !RanksAgree(volShape, patchShape, step) || (mask.Some? && |mask.value.shape| != |volShape|)
    ensures (RanksAgree(volShape, patchShape, step) && !NonzeroSteps(step) &&
             (mask.Some? ==> |mask.value.shape| == |volShape|)) ==> r == Err(ValueError)
    ensures RanksAgree(volShape, patchShape, step) && NonzeroSteps(step) && mask.None? ==>
      r == Ok(if maxCenters.None? then CenterGrid(volShape, patchShape, step)
              else resample(CenterGrid(volShape, patchShape, step), maxCenters.value as real))
    ensures RanksAgree(volShape, patchShape, step) && NonzeroSteps(step) &&
            r.Ok? && maxCenters.None? && mask.Some? ==>
      var grid := CenterGrid(volShape, patchShape, step);
      Subseq(r.value, grid) &&
      forall i :: 0 <= i < |grid| ==> (grid[i] in r.value <==> MaskTest(mask.value, grid[i]) == Ok(true))
    ensures RanksAgree(volShape, patchShape, step) && NonzeroSteps(step) && mask.Some? &&
            |mask.value.shape| == |volShape| ==>
      var filtered := FilterByMask(CenterGrid(volShape, patchShape, step), mask.value);
      (r.Ok? <==> filtered.Ok?) &&
      (r.Err? ==> r.error == filtered.error) &&
      (r.Ok? ==> r.value == if maxCenters.None? then filtered.value
                            else resample(filtered.value, maxCenters.value as real))
  {
    if !RanksAgree(volShape, patchShape, step) then Err(AssertionFailed)
    else if mask.Some? && |mask.value.shape| != |volShape| then Err(AssertionFailed)
    else if !NonzeroSteps(step) then Err(ValueError)
    else
      var grid := CenterGrid(volShape, patchShape, step);
      var centers :- if mask.Some? then FilterByMask(grid, mask.value) else Ok(grid);
      Ok(if maxCenters.Some? then resample(centers, maxCenters.value as real) else centers)
  }

  /** With a rank-3 mask of the volume's own shape and positive steps the mask
      test never fails on a grid center, so the masked result is exactly the
      grid restricted to nonzero mask voxels. */
  lemma MaskedGridFilters(volShape: seq<nat>, patchShape: seq<nat>, step: seq<int>,
                          mask: Volume<real>, resample: Resampler)
    requires RanksAgree(volShape, patchShape, step) && PositiveSteps(step)
    requires |volShape| == 3 && mask.shape == volShape
    ensures var grid := CenterGrid(volShape, patchShape, step);
      var r := SampleCentersUniform(volShape, patchShape, step, None, Some(mask), resample);
      r.Ok? && Subseq(r.value, grid) &&
      forall i :: 0 <= i < |grid| ==> (grid[i] in r.value <==> mask.at(grid[i]) != 0.0)
  {
    var grid := CenterGrid(volShape, patchShape, step);
    forall i | 0 <= i < |grid| ensures MaskTest(mask, grid[i]) == Ok(mask.at(grid[i]) != 0.0) {
      assert grid[i] in grid;
      GridCentersInBounds(volShape, patchShape, step, grid[i]);
    }
  }

  /** If some axis is too small for a patch the result is empty, not an error. */
  lemma TooSmallVolumeGivesNoCenters(volShape: seq<nat>, patchShape: seq<nat>, step: seq<int>,
                                     mask: Option<Volume<real>>, resample: Resampler, a: nat)
    requires RanksAgree(volShape, patchShape, step) && PositiveSteps(step)
    requires mask.Some? ==> |mask.value.shape| == |volShape|
    requires a < |volShape| && volShape[a] <= patchShape[a]
    ensures SampleCentersUniform(volShape, patchShape, step, None, mask, resample) == Ok([])
  {
    var dims := AxisGrid(volShape, patchShape, step);
    AxisEmptyIffPatchTooLarge(volShape[a], patchShape[a], step[a]);
    Grid.ProductEmptyAxis(dims, a);
  }

  /** The product of three copies of [2, 7], in lexicographic order. */
  lemma CubeProduct()
    ensures Grid.Product([[2, 7], [2, 7], [2, 7]]) ==
      [[2, 2, 2], [2, 2, 7], [2, 7, 2], [2, 7, 7], [7, 2, 2], [7, 2, 7], [7, 7, 2], [7, 7, 7]]
  {
    var d: seq<int> := [2, 7];
    var one: seq<seq<int>> := [d];
    assert one[1..] == [];
    var e: seq<seq<int>> := [[]];
    assert Grid.Product(one[1..]) == e;
    var b2, b7 := Grid.Block(2, e), Grid.Block(7, e);
    assert b2[0] == [2] + e[0] == [2];
    assert b7[0] == [7] + e[0] == [7];
    assert Grid.PrependEach(d[1..], e) == [[7]];
    var p1 := Grid.Product(one);
    assert p1 == [[2], [7]];
    var two: seq<seq<int>> := [d, d];
    assert two[1..] == one;
    var c2, c7 := Grid.Block(2, p1), Grid.Block(7, p1);
    assert c2[0] == [2, 2] && c2[1] == [2, 7];
    assert c7[0] == [7, 2] && c7[1] == [7, 7];
    assert Grid.PrependEach(d[1..], p1) == [[7, 2], [7, 7]];
    var p2 := Grid.Product(two);
    assert p2 == [[2, 2], [2, 7], [7, 2], [7, 7]];
    var three: seq<seq<int>> := [d, d, d];
    assert three[1..] == two;
    var f2, f7 := Grid.Block(2, p2), Grid.Block(7, p2);
    assert f2[0] == [2, 2, 2] && f2[1] == [2, 2, 7] && f2[2] == [2, 7, 2] && f2[3] == [2, 7, 7];
    assert f7[0] == [7, 2, 2] && f7[1] == [7, 2, 7] && f7[2] == [7, 7, 2] && f7[3] == [7, 7, 7];
    assert Grid.PrependEach(d[1..], p2) == f7;
    assert Grid.Product(three) == f2 + f7;
  }

  /** A (1, 10, 10, 10) image, patch (3, 3, 3) and step (5, 5, 5) give the
      eight centers {2, 7} x {2, 7} x {2, 7}. */
  lemma TenCubeExample(resample: Resampler)
    ensures SampleCentersUniform([10, 10, 10], [3, 3, 3], [5, 5, 5], None, None, resample) == Ok([
      [2, 2, 2], [2, 2, 7], [2, 7, 2], [2, 7, 7], [7, 2, 2], [7, 2, 7], [7, 7, 2], [7, 7, 7]])
  {
    assert AxisCenters(10, 3, 5) == [2, 7];
    assert AxisGrid([10, 10, 10], [3, 3, 3], [5, 5, 5]) == [[2, 7], [2, 7], [2, 7]];
    CubeProduct();
  }
}

=== FILE: volumes.dfy ===
/** numpy arrays as the code uses them: a shape plus a value at every index,
    basic slicing with step 1, integer indexing, and row-major (C) order. */
module Volumes {
  import opened Base
  import Grid

  /** An n-dimensional array. `at` is meaningful on the indices within `shape`. */
  datatype Volume<T> = Volume(shape: seq<nat>, at: seq<int> -> T)

  predicate InShape(shape: seq<nat>, c: seq<int>)
  {
    |c| == |shape| && forall a :: 0 <= a < |shape| ==> 0 <= c[a] < shape[a]
  }

  /** The index ranges `range(0, n)` of every axis. */
  function AxisIndices(shape: seq<nat>): (dims: seq<seq<int>>)
    ensures |dims| == |shape|
    ensures forall a :: 0 <= a < |shape| ==> dims[a] == Grid.PyRange(0, shape[a], 1)
  {
    seq(|shape|, a requires 0 <= a < |shape| => Grid.PyRange(0, shape[a], 1))
  }

  /** Every index of the shape in numpy's row-major order (the order of
      `np.argwhere` and `np.unique`'s input). */
  function AllCoords(shape: seq<nat>): seq<seq<int>>
  {
    Grid.Product(AxisIndices(shape))
  }

  /** AllCoords lists exactly the indices within the shape, each once, in
      increasing lexicographic (row-major) order. */
  lemma AllCoordsSpec(shape: seq<nat>, c: seq<int>)
    ensures c in AllCoords(shape) <==> InShape(shape, c)
    ensures Grid.LexSorted(AllCoords(shape))
  {
    var dims := AxisIndices(shape);
    Grid.ProductMembership(dims, c);
    forall a | 0 <= a < |shape| && a < |c| ensures c[a] in dims[a] <==> 0 <= c[a] < shape[a] {
      Grid.PyRangeMembership(0, shape[a], 1, c[a]);
    }
    forall a | 0 <= a < |shape| ensures Grid.Increasing(dims[a]) {
      Grid.PyRangeIncreasing(0, shape[a], 1);
    }
    Grid.ProductSorted(dims);
  }

  /** One entry of a numpy index tuple: `slice(None)` or `slice(start, stop)`. */
  datatype Slice = Whole | Span(start: int, stop: int)

  /** numpy's normalisation of a slice bound on an axis of length n: negative
      bounds count from the end, and the result is clipped to [0, n]. */
  function ClipBound(b: int, n: nat): (r: nat)
    ensures r <= n
    ensures 0 <= b <= n ==> r == b
  {
    if b < 0 then (if b + n < 0 then 0 else b + n)
    else if b > n then n
    else b
  }

  /** First index an axis slice reads. */
  function SliceStart(s: Slice, n: nat): nat
  {
    match s
    case Whole => 0
    case Span(a, _) => ClipBound(a, n)
  }

  /** Number of indices an axis slice reads (never negative: numpy yields an
      empty axis rather than an error). */
  function SliceExtent(s: Slice, n: nat): (e: nat)
    ensures SliceStart(s, n) + e <= n
  {
    match s
    case Whole => n
    case Span(a, b) =>
      var lo, hi := ClipBound(a, n), ClipBound(b, n);
      if hi > lo then hi - lo else 0
  }

  /** The slice that applies to axis a: index tuples shorter than the rank
      take the remaining axes whole. */
  function AxisSlice(slices: seq<Slice>, a: nat): Slice
  {
    if a < |slices| then slices[a] else Whole
  }

  /** `offset + idx` componentwise (indices of another rank are left alone). */
  function Shift(offset: seq<int>, idx: seq<int>): (r: seq<int>)
    ensures |r| == |idx|
  {
    if |idx| == |offset| then seq(|idx|, a requires 0 <= a < |idx| => offset[a] + idx[a]) else idx
  }

  /** `v[slices]` with basic slicing: a view whose index 0 on every axis is the
      first index the slice reads. More slices than axes raise IndexError. */
  function Extract<T>(v: Volume<T>, slices: seq<Slice>): (r: Result<Volume<T>>)
    ensures r.Ok? <==> |slices| <= |v.shape|
    ensures r.Ok? ==> |r.value.shape| == |v.shape|
  {
    if |slices| > |v.shape| then Err(IndexError)
    else
      var n := |v.shape|;
      var origin := seq(n, a requires 0 <= a < n => SliceStart(AxisSlice(slices, a), v.shape[a]));
      var shape := seq(n, a requires 0 <= a < n => SliceExtent(AxisSlice(slices, a), v.shape[a]));
      Ok(Volume(shape, (idx: seq<int>) => v.at(Shift(origin, idx))))
  }

  /** An axis slice is in bounds when it is whole or lies inside [0, n]. */
  predicate SliceInBounds(s: Slice, n: nat)
  {
    s.Whole? || (0 <= s.start <= s.stop <= n)
  }

  /** Slicing with in-bounds slices reads exactly the requested box: each axis
      has extent stop - start, and index idx of the result is index
      start + idx of the source. Every index of the result lies in the source. */
  lemma ExtractInBounds<T>(v: Volume<T>, slices: seq<Slice>, idx: seq<int>)
    requires |slices| <= |v.shape|
    requires forall a :: 0 <= a < |slices| ==> SliceInBounds(slices[a], v.shape[a])
    ensures Extract(v, slices).Ok?
    ensures forall a :: 0 <= a < |v.shape| ==>
      Extract(v, slices).value.shape[a] ==
        (if a < |slices| && slices[a].Span? then slices[a].stop - slices[a].start else v.shape[a])
    ensures InShape(Extract(v, slices).value.shape, idx) ==>
      var src := seq(|idx|, a requires 0 <= a < |idx| =>
        (if a < |slices| && slices[a].Span? then slices[a].start else 0) + idx[a]);
      InShape(v.shape, src) && Extract(v, slices).value.at(idx) == v.at(src)
  {
    var n := |v.shape|;
    var origin := seq(n, a requires 0 <= a < n => SliceStart(AxisSlice(slices, a), v.shape[a]));
    var e := Extract(v, slices).value;
    if InShape(e.shape, idx) {
      var src := seq(|idx|, a requires 0 <= a < |idx| =>
        (if a < |slices| && slices[a].Span? then slices[a].start else 0) + idx[a]);
      assert Shift(origin, idx) == src;
    }
  }

  /** The in-shape index a tuple of in-range integers denotes: a negative
      entry counts from the end of its axis. */
  function Wrapped(shape: seq<nat>, c: seq<int>): (w: seq<int>)
    requires |c| == |shape| && forall a :: 0 <= a < |c| ==> -(shape[a] as int) <= c[a] < shape[a]
    ensures |w| == |c| && InShape(shape, w)
    ensures forall a :: 0 <= a < |c| ==> w[a] == (if c[a] < 0 then c[a] + shape[a] else c[a])
  {
    seq(|c|, a requires 0 <= a < |c| => if c[a] < 0 then c[a] + shape[a] else c[a])
  }

  /** `v[c]` with one integer per axis: negative indices count from the end;
      anything outside [-n, n) raises IndexError. */
  function Lookup<T>(v: Volume<T>, c: seq<int>): (r: Result<T>)
    ensures r.Ok? <==> |c| == |v.shape| && forall a :: 0 <= a < |c| ==> -(v.shape[a] as int) <= c[a] < v.shape[a]
    ensures InShape(v.shape, c) ==> r == Ok(v.at(c))
    ensures r.Ok? ==> r.value == v.at(Wrapped(v.shape, c))
  {
    if |c| != |v.shape| then Err(IndexError)
    else if exists a :: 0 <= a < |c| && PyIndex(c[a], v.shape[a]).None? then Err(IndexError)
    else
      var w := Wrapped(v.shape, c);
      assert InShape(v.shape, c) ==> w == c;
      Ok(v.at(w))
  }

  /** The flat list of values in row-major order (`v.flatten()`). */
  function Values<T>(v: Volume<T>): (r: seq<T>)
    ensures |r| == |AllCoords(v.shape)|
  {
    var cs := AllCoords(v.shape);
    seq(|cs|, k requires 0 <= k < |cs| => v.at(cs[k]))
  }
}
